=== FILE: README.md ===
# Jan-Contract core, modelled in Dafny

Jan-Contract serves India's informal workforce. It generates contracts from a
plain-language request, finds government schemes, and "demystifies" an
uploaded legal PDF. For the PDF it writes a summary, a list of key legal terms,
each explained with a link, and a disclaimer, and then answers follow-up
questions through a retrieval chain.

This project models the deterministic core of that system:

- **`Demystifier`** (`demystifier.dfy`) models the analysis pipeline of `agents/demystifier_agent.py`:
  - the three prompts, including the 2000-character cap on the context of the enrichment prompt;
  - the comma-separated term list, parsed with strip and blank-dropping;
  - parsing `Explanation:` / `URL:` out of each enrichment answer, with its `IndexError` fallback;
  - report assembly;
  - the fixed `START → summarize → identify_terms → generate_report → END` graph, computed from its edge list;
  - `process_document_for_demystification` end to end, given the chunks.
- **`PdfText`** (`pdf_text.dfy`) models `markdown_to_html_for_fpdf` and the latin-1 `'replace'` round trip of `generate_formatted_pdf`:
  - the lazy, line-bounded `\*\*(.*?)\*\*` substitution;
  - `\n` → `<br>`;
  - one `?` per character outside latin-1.
- **`Registry`** (`registry.dfy`) models `SESSION_CACHE` / `CONTRACT_CACHE` as Python dicts: lookup, insertion, deletion, and iteration in insertion order.
- **`Api`** (`api.dfy`) models the enhanced FastAPI server `main.py`:
  - the Pydantic validators, where the raw length bounds come first and then the validator on the stripped text;
  - the demystifier upload / chat / list / delete handlers;
  - contract generation, PDF, fetch, listing with 100-character previews, and deletion;
  - schemes and the general assistant;
  - consent videos, which are tied to a contract only by the file-name prefix `consent_{contract_id}_`.

  Each handler is a transition from the server state to the next state plus a reply or an HTTP error. The state is both caches plus the file names in `pdfs_demystify/` and `video_consents/`.
- **`SimpleApi`** (`simple_api.dfy`) models the demystifier endpoints of the smaller `main_fastapi.py`. There, the session cache maps an id to a bare chain, the upload goes through a temporary file, and chat questions are not validated.
- **`Text`** (`text.dfy`) models the Python `str` operations the core uses: `isspace`, `strip`, `find`, `split(sep)`, `sep.join` and `startswith`.
- **`Wrappers`** (`wrappers.dfy`) holds `Option`, `Result` and `Min`.

Everything the code calls outside this core is a parameter:
- the language model, web search and the vector-store build (`Llm`, `Search` and `IndexBuild` in `Demystifier`), each of which may fail;
- the chunk list that the PDF loader and splitter produce, which `Demystifier` takes as given;
- the whole document pipeline, the RAG chain's answering, the legal agent and the chatbots, as seen by the HTTP handlers (`SimpleApi.Pipeline` wires the demystifier in as that pipeline);
- FPDF's rendering of the markup (`Renderer`), which may fail;
- `uuid4` and the clock.

A raised exception is the `Failure` side of a `Result`. In `Demystifier` this covers the model, search and vector-store calls, so an error in any of them aborts the analysis with that error. In `Api` and `SimpleApi`, a `Processor` failure stands for any exception of the document pipeline, loading and splitting included.

Where the prompts, the field descriptions and the code differ, the model follows the code:

- **No cap on the number of terms.** The prompt asks for "3-5" terms, but nothing caps the parsed list (`TermListIsNotCapped`).
- **Empty fields are kept.** An explanation or link may come out empty (`EmptyFieldsAreKept`).
- **A missing `URL:` is not an error.** Only a missing `Explanation:` triggers the fallback. If there is no `URL:`, the link is the whole stripped answer (`MissingUrlGivesWholeAnswerAsLink`).
- **A second `Explanation:` ends the explanation.** `split("Explanation:")[1]` stops there as well as at `URL:` (`ExplanationField`).
- **Videos need no contract.** A consent video is accepted for a contract id that does not exist (`VideoRefusal`).
- **Id prefixes collide.** Deleting a contract removes every video whose name starts with its prefix, including those of a contract id that extends it with `_` (`PrefixCollision`). For `_`-free ids such as uuid4 strings, the prefix identifies the contract exactly (`PrefixIdentifiesContract`).

## Model

| member | source | states |
|---|---|---|
| Demystifier.ContextCap | agents/demystifier_agent.py:71 | the capped context has min(2000, n) characters and is a prefix of the document context |
| Demystifier.EnrichmentPromptCarriesCappedContext | agents/demystifier_agent.py:66-75 | the enrichment prompt contains the first min(2000, n) characters of the document right after its lead, and its size exceeds the context-free prompt by at most 2000 |
| Demystifier.ExplanationIgnoresTextBeyondLimit | agents/demystifier_agent.py:66-83 | two documents that agree on their first 2000 characters get the same explained term |
| Demystifier.ParseTerms | agents/demystifier_agent.py:59 | every parsed term is non-empty and has no surrounding whitespace; there are at most (number of commas + 1) terms |
| Demystifier.ParsedTermsHaveNoComma | agents/demystifier_agent.py:59 | no parsed term contains a comma |
| Demystifier.ParseTermsOfField | agents/demystifier_agent.py:59 | a comma-free answer gives its stripped text as the only term, or no term when it is blank |
| Demystifier.ParseTermsConcat | agents/demystifier_agent.py:59 | parsing `x,y` gives the terms of `x` followed by the terms of `y` |
| Demystifier.ParseTermsJoin | agents/demystifier_agent.py:59 | round trip: a list of non-empty, stripped, comma-free terms written as `", ".join` parses back to itself |
| Demystifier.TermListIsNotCapped | agents/demystifier_agent.py:57-59 | six listed terms are all kept, although the prompt asks for 3-5 |
| Demystifier.TryParseEnrichment | agents/demystifier_agent.py:77-80 | the split raises `IndexError` exactly when the answer has no `Explanation:` |
| Demystifier.ParseEnrichment | agents/demystifier_agent.py:77-82 | without `Explanation:` both fallback texts are used; otherwise the parsed fields are used |
| Demystifier.ExplanationField | agents/demystifier_agent.py:78 | the explanation is the text after the first `Explanation:`, cut at the next `Explanation:` and then at the first `URL:`, and stripped |
| Demystifier.ExplanationIsTextUpToNextMarker | agents/demystifier_agent.py:78 | the explanation is the stripped marker-free text running from the first `Explanation:` to the next marker or the end |
| Demystifier.LinkIsTextAfterLastUrl | agents/demystifier_agent.py:79 | the link is the stripped text after the last `URL:`, or the whole stripped answer when there is no `URL:` |
| Demystifier.MissingUrlGivesWholeAnswerAsLink | agents/demystifier_agent.py:77-82 | an answer with `Explanation:` but no `URL:` gets its whole stripped text as the link, not the fallback |
| Demystifier.FormatEnrichment | agents/demystifier_agent.py:73-75 | an answer in the requested layout starts with `Explanation:` |
| Demystifier.EnrichmentRoundTrip | agents/demystifier_agent.py:73-82 | round trip: parsing an answer in the requested layout gives back its explanation and link, for any stripped marker-free fields |
| Demystifier.EmptyFieldsAreKept | agents/demystifier_agent.py:78-79 | an answer with empty fields yields an empty explanation and an empty link |
| Demystifier.ExplainTerm | agents/demystifier_agent.py:67-83 | one enrichment step completes exactly when the search and the model call both return, and otherwise fails with the error of the search, or of the model call when the search returned; its explanation and link are the fields parsed from the model's answer, under the term it was asked about |
| Demystifier.ExplainTerms | agents/demystifier_agent.py:65-83 | the loop completes exactly when every term's calls return, and then holds one explained term per identified term, in order, each enriched on its own |
| Demystifier.FirstFailureStopsLoop | agents/demystifier_agent.py:67-83 | a failed loop carries the error of the first term whose calls raise, and every earlier term was explained |
| Demystifier.BuildReport | agents/demystifier_agent.py:62-85 | the report is built exactly when the enrichment loop completes; it carries the summary, the fixed disclaimer, and one key term per identified term, with the same terms in the same order |
| Demystifier.ReportTerms | agents/demystifier_agent.py:65-84 | the i-th key term of a built report is the enrichment of the i-th identified term |
| Demystifier.Successor | agents/demystifier_agent.py:92-95 | the successor of a vertex is the target of one of its edges; there is none exactly when no edge leaves it |
| Demystifier.GraphSuccessors | agents/demystifier_agent.py:92-95 | the edge list links START, summarize, identify_terms, generate_report and END in a chain |
| Demystifier.ScheduleOfChain | agents/demystifier_agent.py:88-96 | any edge list with that chain of successors schedules exactly summarize, identify_terms, generate_report |
| Demystifier.StagesRunInFixedOrder | agents/demystifier_agent.py:88-96 | the compiled graph runs the three stages once each, in that order |
| Demystifier.RunNode | agents/demystifier_agent.py:45-85 | each node writes its own key and nothing else; generate_report fails with the `identified_terms` KeyError when no terms were written, and fails when no summary was written |
| Demystifier.RunNodesWritesReport | agents/demystifier_agent.py:45-96 | a completed run keeps the chunks and holds a report when generate_report ran |
| Demystifier.RunGraph | agents/demystifier_agent.py:87-96 | a graph run that reaches END has kept the chunks and written the report |
| Demystifier.ProcessDocument | agents/demystifier_agent.py:107-123 | a vector-store build that raises fails the analysis with its error before the graph runs; a completed analysis carries a report and a chat chain over this document's chunks with k = 3 |
| Demystifier.ProcessDocumentSucceedsIff | agents/demystifier_agent.py:45-123 | given the chunks, the analysis completes exactly when the vector-store build, the summary call, the term-list call and every identified term's search and model call return |
| Demystifier.RunStagesIff | agents/demystifier_agent.py:45-96 | the three scheduled nodes run to the end exactly when every external call returns |
| Demystifier.SummaryFailureStopsAnalysis | agents/demystifier_agent.py:45-51 | when the summary call raises, the analysis fails with that error |
| Demystifier.TermListFailureStopsAnalysis | agents/demystifier_agent.py:53-60 | when the summary returned and the term-list call raises, the analysis fails with that call's error |
| Demystifier.RunStages | agents/demystifier_agent.py:45-85 | when the calls return, running the three stages writes the summary, then the parsed terms, then the report built from them |
| Demystifier.ProcessDocumentReport | agents/demystifier_agent.py:107-123 | when the vector store is built and every call of the graph returns, processing yields a report whose summary is the summarize output, whose key terms are the identified terms enriched one for one, and whose advice is the disclaimer; the chat chain retrieves 3 chunks |
| PdfText.Closing | utils/pdf_generator.py:13 | a found closing `**` lies inside the text |
| PdfText.ClosingSpec | utils/pdf_generator.py:13 | the lazy group ends at the first `**` on the same line; there is no match exactly when no `**` follows on that line |
| PdfText.BoldSubStep | utils/pdf_generator.py:13 | at an opening `**` whose group first closes on the same line at `k`, the group is set in bold and the scan resumes after the closing `**` |
| PdfText.PlainTextUnchanged | utils/pdf_generator.py:13 | text with no `**` in it is left unchanged, single asterisks included |
| PdfText.BulletLineUnchanged | utils/pdf_generator.py:13 | the bullet line `* item` is left unchanged |
| PdfText.BoldSpan | utils/pdf_generator.py:13 | `**t**` with one-line, asterisk-free `t` becomes `<b>t</b>` |
| PdfText.UnclosedMarkerStaysLiteral | utils/pdf_generator.py:13 | a `**` with no closing `**` on its line stays literal, and the scan goes on right after it |
| PdfText.ClosingStopsAtNewline | utils/pdf_generator.py:13 | a newline ends the search for a closing `**` |
| PdfText.BoldStaysOnItsLine | utils/pdf_generator.py:13 | the substitution works line by line: it commutes with cutting at a newline |
| PdfText.BreakLinesRemovesNewlines | utils/pdf_generator.py:16 | no newline survives the replacement |
| PdfText.BreakLinesConcat | utils/pdf_generator.py:16 | the replacement works piece by piece: it distributes over concatenation |
| PdfText.BreakLinesLength | utils/pdf_generator.py:16 | the result has 3 more characters per newline |
| PdfText.NoNewlineUnchanged | utils/pdf_generator.py:16 | text without newline is left unchanged |
| PdfText.BreakLinesIsJoinOfSplit | utils/pdf_generator.py:16 | `replace('\n', '<br>')` equals `'<br>'.join(s.split('\n'))` |
| PdfText.MarkdownToHtml | utils/pdf_generator.py:6-18 | the HTML contains no newline |
| PdfText.MarkdownToHtmlLinewise | utils/pdf_generator.py:6-18 | converting two lines gives the converted lines joined by `<br>` |
| PdfText.PlainLineUnchanged | utils/pdf_generator.py:6-18 | a line with no `**` in it passes through unchanged |
| PdfText.BoldAcrossLinesExample | utils/pdf_generator.py:13-16 | `**a\nb**` is not bolded: it becomes `**a<br>b**` |
| PdfText.Latin1Replace | utils/pdf_generator.py:40 | the round trip keeps the length and maps every character outside latin-1 to `?` and every other character to itself |
| PdfText.Latin1ReplaceProperties | utils/pdf_generator.py:40 | the result is latin-1; the text is unchanged exactly when it was latin-1 already; the step is idempotent |
| PdfText.BoldSubAfterLatin1 | utils/pdf_generator.py:13-40 | the bold substitution commutes with the latin-1 replacement |
| PdfText.MarkupCommutesWithLatin1 | utils/pdf_generator.py:36-40 | converting and then replacing equals replacing and then converting |
| PdfText.PdfMarkup | utils/pdf_generator.py:36-40 | the text handed to the PDF writer is latin-1 and has no newline |
| PdfText.PlainLatin1LineUnchanged | utils/pdf_generator.py:36-40 | a latin-1 line with no `**` in it reaches the PDF writer unchanged |
| Text.Strip | agents/demystifier_agent.py:59 | `strip()` yields a text that starts and ends with non-whitespace, no longer than the input |
| Text.StripPadding | main.py:87-89 | whitespace padding around a stripped text is removed exactly |
| Text.StripIdempotent | main.py:87-89 | stripping twice equals stripping once |
| Text.SplitJoin | agents/demystifier_agent.py:78-79 | round trip: joining the split fields with the separator gives back the text |
| Text.SplitIsSingleton | agents/demystifier_agent.py:78-79 | a split yields a single field exactly when the separator does not occur |
| Text.FindSpec | agents/demystifier_agent.py:78-79 | `find` reports no position exactly when the pattern is absent, and otherwise its first occurrence |
| Registry.Get | main.py:158-170 | a lookup succeeds exactly for a key in the dict and returns its value |
| Registry.Put | main.py:252-256 | assignment keeps the dict well-formed, maps the key to the value, and appends a new key at the end of the iteration order |
| Registry.Remove | main.py:337 | deletion keeps the dict well-formed and drops exactly that key |
| Registry.Items | main.py:317 | `items()` lists each key in insertion order with its value |
| Registry.ItemsCount | main.py:327 | there are as many items as keys |
| Registry.GetAfterPut | main.py:252-256 | reading a key just written gives its value; other keys read as before |
| Registry.GetAfterRemove | main.py:513 | a deleted key reads as missing; other keys read as before |
| Registry.ItemsAfterPut | main.py:433-438 | writing a new key appends exactly one item after the old ones |
| Registry.ItemsAfterRemove | main.py:513 | deleting a key removes its item and keeps the rest in order |
| Registry.WithoutRemovesOne | main.py:337 | the iteration order after a deletion is the old order with that one position removed |
| Api.ValidateText | main.py:76-104 | a request or profile is accepted exactly when it has 10..2000 raw characters and at least 10 after stripping; the stored value is the stripped text; fewer than 10 raw characters is refused as too short and more than 2000 as too long, before stripping; a text within the bounds that strips to fewer than 10 gets the validator message |
| Api.ValidatedTextIsStable | main.py:85-89 | the accepted value is the stripped text, and validating it again accepts it unchanged |
| Api.PaddedShortRequestIsRejected | main.py:80-88 | a 12-character request holding only `abc` inside padding is refused by the validator |
| Api.ValidateQuestion | main.py:112-127 | a question is accepted exactly when it has 1..1000 characters, unchanged |
| Api.InitialServer | main.py:151-152 | both caches start empty |
| Api.GetSession | main.py:158-163 | the session is returned exactly when cached; otherwise 404 with the session message |
| Api.GetContractData | main.py:165-170 | the contract is returned exactly when cached; otherwise 404 |
| Api.UploadDocument | main.py:411-452 | an upload keeps the caches well-formed and touches neither contracts nor videos |
| Api.UploadRefusal | main.py:411-415 | an upload gets 400 exactly when it is not `application/pdf` or declares more than 50 MiB; a refused upload changes nothing |
| Api.UploadAddsOneSession | main.py:417-449 | a processed upload adds exactly one session under the fresh id, at the end of the listing, holding the chain, path, time and file name; the saved file is recorded |
| Api.UploadFailureLeavesFile | main.py:424-452 | a processing failure gives 500 and adds no session, but leaves the saved file on disk |
| Api.Chat | main.py:454-488 | an invalid question gets 422 first, then an unknown session 404; the reply is the chain's answer with the session id and question exactly when the question is valid, the session is cached and the chain answers |
| Api.GenerateContractPdf | main.py:272-300 | an invalid request gets 422; a PDF named `contract_{stamp}.pdf` is produced exactly when the request is valid, the agent answers and the renderer does not raise; an agent or rendering error gives 500 |
| Api.ChatAfterUpload | main.py:469-485 | the returned session id answers a valid question with the chain built from that document |
| Api.ChatUnknownSession | main.py:454-469 | an unknown session gives 404 once the question is valid; an invalid question gets 422 first |
| Api.ListSessions | main.py:490-505 | one summary per session, in insertion order, with its id, file name and upload time |
| Api.ListSessionsCount | main.py:493-503 | the listing has one entry per cached session |
| Api.DeleteSession | main.py:507-523 | deletion keeps the caches well-formed and touches neither contracts nor videos |
| Api.DeleteSessionEffect | main.py:507-523 | deleting a cached session removes only that key and exactly its saved file, and a later chat with it gets 404; an unknown id gets 404 and changes nothing |
| Api.GenerateContract | main.py:228-270 | generation keeps the caches well-formed and touches only the contract cache |
| Api.GenerateThenGet | main.py:248-311 | a generated contract is cached under the fresh id with the agent's result, the time and the stripped request, and can be fetched back |
| Api.InvalidRequestChangesNothing | main.py:76-89 | a request refused by validation gets 422 and changes nothing |
| Api.GetContract | main.py:302-311 | the fetch succeeds exactly for a cached id and returns its entry; otherwise 404 |
| Api.ContractPdfText | main.py:286-289 | when the agent answers and rendering succeeds, the PDF is made from the latin-1-safe markup of the agent's text, or of the fixed error text when there is none |
| Api.Preview | main.py:320-322 | a preview is the first min(100, n) characters followed by `...` |
| Api.ListContracts | main.py:313-329 | one summary per contract, in insertion order, with previews of its text and request |
| Api.ListContractsShape | main.py:316-323 | the listing has one entry per contract; each request preview is at most 103 characters, starts with the request's first characters, and ends with `...` |
| Api.VideosOf | main.py:638-639 | the videos listed for a contract are exactly the stored names that start with `consent_{id}_` |
| Api.ContractVideos | main.py:625-651 | the listing for a contract holds exactly the stored videos whose names start with `consent_{id}_`; the contract need not exist |
| Api.DeleteContract | main.py:331-349 | deletion keeps the caches well-formed and touches neither sessions nor PDFs |
| Api.DeleteContractEffect | main.py:331-344 | deleting a contract removes it and exactly the videos with its prefix, and a later fetch fails |
| Api.FindSchemes | main.py:355-385 | an invalid profile is refused with its validation error before the chatbot is asked |
| Api.GeneralChat | main.py:529-561 | an invalid question gets 422 |
| Api.UploadVideo | main.py:567-623 | a video upload changes only the video directory |
| Api.VideoRefusal | main.py:586-595 | a video gets 400 exactly when its type is not one of the four allowed or it declares more than 100 MiB; whether the contract exists plays no part; a refusal changes nothing |
| Api.VideoFollowsItsContract | main.py:604-639 | a stored video is listed for its contract and removed when the contract is deleted |
| Api.PrefixIdentifiesContract | main.py:604 | for `_`-free ids, a video name carries a contract's prefix exactly when it was stored for that contract |
| Api.DistinctIdsDiffer | main.py:343 | a video of one `_`-free id never carries the prefix of a different `_`-free id |
| Api.PrefixCollision | main.py:343 | the video of contract `a_b` carries the prefix of contract `a`, so deleting `a` removes it |
| SimpleApi.Upload | main_fastapi.py:87-117 | a non-PDF upload gets 400 and changes nothing; success caches the chain under the id and unlinks the temporary file; a processing failure gives 500, leaves the cache alone, and leaves the temporary file behind |
| SimpleApi.Chat | main_fastapi.py:119-133 | an unknown session gets 404; otherwise the reply is the chain's answer, or 500 when the chain raises |
| SimpleApi.UploadAddsExactlyOneSession | main_fastapi.py:99-110 | with a fresh id, a successful upload adds exactly one session, keeps the others, and leaves no temporary file |
| SimpleApi.UploadWithDemystifier | main_fastapi.py:99-115 | with the demystifier as the pipeline, an upload succeeds exactly when the vector store is built and every graph call returns, and the reply then always carries the analysis' report |
| SimpleApi.SessionsOnlyGrow | main_fastapi.py:87-117 | no upload drops a cached session |
| SimpleApi.ChatAfterUpload | main_fastapi.py:108-133 | chatting with the returned id uses exactly the chain built from that document |
| SimpleApi.ChatUnknownSession | main_fastapi.py:119-127 | an unknown session gets 404 even for an empty question, because this server does not validate questions |

## Left out

- The language model, the web search tool, the PDF loader and text splitter, the embedding model, FAISS and the RAG chain's own answering are external. They appear as function parameters (`Llm`, `Search`, `IndexBuild`, the chunk list, `Processor`, `Answerer`). The chat chain is modelled only by its chunks and its `k = 3`.
- `uuid4` and the clock are parameters (`token`, `sessionId`, `contractId`, `now`, `stamp`).
  - Freshness of a new id is a hypothesis of the lemmas that need it, not a precondition of the handlers, because assigning to a dict key overwrites.
  - The two clock readings in a reply and its cache entry are collapsed into one `now`.
- File I/O is modelled as sets of file names. Failures to write, copy or remove a file are not modelled. Neither are the directory listing order and the size and creation time in the video listing.
- The actual PDF rendering by FPDF (`write_html`, fonts, `pdf.output()`) is not modelled beyond whether it raises (`Api.Renderer`). `PdfText.PdfMarkup` stops at the string handed to `write_html`, and the PDF bytes are not modelled.
- The health, root, info and static-file endpoints are not modelled. Nor are the CORS setup, logging, the `print` calls, or the generic exception handlers that wrap errors in `ApiResponse`.
- Pydantic's own error texts for the length bounds are not modelled. A refused field is reported as `TooShort(min)`, `TooLong(max)` or `Rejected(message)` with HTTP status 422.
- The contract-generation and scheme endpoints of `main_fastapi.py` are not modelled. They call the same agents as `main.py`, without validation and without caching.
- Api.UploadDocument: its own contract states only what it leaves unchanged; its effect is stated by the lemmas next to it in the table above.
- Api.DeleteSession: its own contract states only what it leaves unchanged; its effect is stated by the lemmas next to it in the table above.
- Api.GenerateContract: its own contract states only what it leaves unchanged; its effect is stated by the lemmas next to it in the table above.
- Api.DeleteContract: its own contract states only what it leaves unchanged; its effect is stated by the lemmas next to it in the table above.
- Api.UploadVideo: its own contract states only what it leaves unchanged; its effect is stated by the lemmas next to it in the table above.
- Api.FindSchemes: its contract states only the validation path; after that, the chatbot's reply passes through unchanged, and an exception becomes a 500.
- Api.GeneralChat: its contract states only the validation path; after that, the assistant's reply passes through unchanged, and an exception becomes a 500.
- Demystifier.ProcessDocumentSucceedsIff: the PDF loader and splitter (agents/demystifier_agent.py:110-113) are represented by the chunk list they produce, so their failure is outside this iff; in the handlers a `Processor` failure stands for it.
- The `DemystifyState` graph state is a record of optional fields. A missing key makes `generate_report` fail, which models LangGraph's `KeyError`. The schedule cannot reach that case.

=== FILE: api.dfy ===
/** The enhanced HTTP front end (main.py): request validation, the session
    and contract caches, the demystifier upload/chat endpoints, and the
    consent-video files tied to contracts by their file-name prefix.

    Every handler is a function from the server state (both caches and the
    two upload directories) to the next state and a reply or an HTTP error.
    The agents, the document pipeline, the RAG chain, uuid4 and the clock are
    parameters. */
module Api {
  import opened Wrappers
  import opened Text
  import opened Registry
  import Demystifier
  import PdfText

  // ---------------------------------------------------------------------------
  // Constants
  // ---------------------------------------------------------------------------

  const MinTextLength := 10
  const MaxTextLength := 2000
  const MaxQuestionLength := 1000
  const PreviewLength := 100
  const PreviewMark := "..."

  const MiB := 1024 * 1024
  const PdfSizeLimit := 50 * MiB
  const VideoSizeLimit := 100 * MiB

  const PdfContentType := "application/pdf"
  const AllowedVideoTypes := ["video/mp4", "video/avi", "video/quicktime", "video/x-msvideo"]

  const PdfUploadDir := "pdfs_demystify"
  const VideoDir := "video_consents"
  const VideoLead := "consent_"
  const VideoExtension := ".mp4"

  const RequestTooShort := "Request must be at least 10 characters long"
  const ProfileTooShort := "Profile must be at least 10 characters long"
  const SessionNotFound := "Session not found. Please upload the document again."
  const ContractNotFound := "Contract not found"
  const InvalidPdf := "Invalid file type. Please upload a PDF."
  const PdfTooLarge := "File too large. Maximum size is 50MB."
  const InvalidVideoLead := "Invalid video format. Allowed: "
  const VideoTooLarge := "Video too large. Maximum size is 100MB."
  const MissingContractText := "Error: Could not generate document text."
  const PdfFailed := "PDF generation failed: "

  // ---------------------------------------------------------------------------
  // Request validation (the Pydantic models)
  // ---------------------------------------------------------------------------

  /** Why a request body was refused: a length bound of the field, or the
      message of a custom validator. */
  datatype FieldError = TooShort(min: nat) | TooLong(max: nat) | Rejected(message: string)

  /** A 10..2000-character field whose validator strips it and demands ten
      characters after stripping (`ContractRequest.user_request`,
      `SchemeRequest.user_profile`). The length bounds apply to the raw text
      first; the stored value is the stripped text. */
  function ValidateText(raw: string, message: string): (r: Result<string, FieldError>)
    ensures r.Success? <==> MinTextLength <= |raw| <= MaxTextLength && |Strip(raw)| >= MinTextLength
    ensures r.Success? ==> r.value == Strip(raw) && IsStripped(r.value) && MinTextLength <= |r.value| <= MaxTextLength
    ensures r.Failure? && |raw| < MinTextLength ==> r.error == TooShort(MinTextLength)
    ensures |raw| > MaxTextLength ==> r == Failure(TooLong(MaxTextLength))
    ensures r.Failure? && MinTextLength <= |raw| <= MaxTextLength ==> r.error == Rejected(message)
  {
    if |raw| < MinTextLength then Failure(TooShort(MinTextLength))
    else if |raw| > MaxTextLength then Failure(TooLong(MaxTextLength))
    else
      var v := Strip(raw);
      if |v| < MinTextLength then Failure(Rejected(message)) else Success(v)
  }

  function ValidateRequest(raw: string): Result<string, FieldError> {
    ValidateText(raw, RequestTooShort)
  }

  function ValidateProfile(raw: string): Result<string, FieldError> {
    ValidateText(raw, ProfileTooShort)
  }

  /** The accepted value is what `strip()` makes of the raw text, and
      validating it again accepts it unchanged. */
  lemma ValidatedTextIsStable(raw: string, message: string)
    requires ValidateText(raw, message).Success?
    ensures ValidateText(raw, message).value == Strip(raw)
    ensures ValidateText(ValidateText(raw, message).value, message) == ValidateText(raw, message)
  {
    StrippedIsFixpoint(Strip(raw));
  }

  /** Ten characters of padding around a short word pass the raw length
      check but not the validator. */
  lemma PaddedShortRequestIsRejected()
    ensures ValidateRequest("    abc     ") == Failure(Rejected(RequestTooShort))
  {
    var raw := "    abc     ";
    assert AllSpace("    ") && AllSpace("     ") && IsStripped("abc");
    StripPadding("    ", "abc", "     ");
    assert raw == "    " + "abc" + "     ";
  }

  /** `ChatRequest.question` and `GeneralChatRequest.question`: 1..1000
      characters, not stripped. */
  function ValidateQuestion(q: string): (r: Result<string, FieldError>)
    ensures r.Success? <==> 1 <= |q| <= MaxQuestionLength
    ensures r.Success? ==> r.value == q
  {
    if |q| < 1 then Failure(TooShort(1))
    else if |q| > MaxQuestionLength then Failure(TooLong(MaxQuestionLength))
    else Success(q)
  }

  // ---------------------------------------------------------------------------
  // State
  // ---------------------------------------------------------------------------

  datatype Upload = Upload(contentType: string, size: Option<nat>, filename: string)

  /** A `SESSION_CACHE` entry. */
  datatype Session = Session(ragChain: Demystifier.RagChain, filePath: string, uploadTime: string, filename: string)

  /** What the legal agent returns; either key may be missing. */
  datatype AgentResult = AgentResult(legalDoc: Option<string>, legalTrivia: Option<string>)

  /** A `CONTRACT_CACHE` entry: the agent's result plus two added keys. */
  datatype Contract = Contract(legalDoc: Option<string>, legalTrivia: Option<string>, createdAt: string, userRequest: string)

  /** Both caches, and the file names in the two upload directories. */
  datatype Server = Server(
    sessions: Store<Session>,
    contracts: Store<Contract>,
    pdfFiles: set<string>,
    videos: set<string>)

  ghost predicate ServerValid(st: Server) {
    Valid(st.sessions) && Valid(st.contracts)
  }

  /** The server at start-up. */
  function InitialServer(): (st: Server)
    ensures ServerValid(st)
    ensures st.sessions.entries == map[] && st.contracts.entries == map[]
  {
    Server(Empty(), Empty(), {}, {})
  }

  /** A refused request: the body failed validation (422), or a handler
      raised `HTTPException(status, detail)`. */
  datatype Refusal = Invalid(field: FieldError) | Http(status: nat, detail: string)

  function StatusOf(f: Refusal): nat {
    match f
    case Invalid(_) => 422
    case Http(status, _) => status
  }

  datatype SessionSummary = SessionSummary(sessionId: string, filename: string, uploadTime: string)

  datatype ContractSummary = ContractSummary(id: string, summary: string, createdAt: string, userRequest: string)

  /** The `data` of a successful reply. */
  datatype Reply =
    | SessionCreated(sessionId: string, report: Option<Demystifier.DemystifyReport>, filename: string, uploadTime: string)
    | Answered(answer: string, sessionId: string, question: string)
    | SessionList(sessions: seq<SessionSummary>)
    | Deleted
    | ContractCreated(contractId: string, contractText: string, legalTrivia: Option<string>, createdAt: string)
    | ContractPdf(markup: string, filename: string)
    | ContractFound(contract: Contract)
    | ContractList(contracts: seq<ContractSummary>)
    | VideoStored(videoPath: string, contractId: string, filename: string, size: Option<nat>, consentText: string)
    | VideoList(filenames: set<string>)
    | Schemes(response: string)
    | Assistant(response: string, question: string)

  datatype Step = Step(server: Server, outcome: Result<Reply, Refusal>)

  /** `process_document_for_demystification` on a saved file; Failure is an
      exception it raises. */
  type Processor = string -> Result<Demystifier.Analysis, string>

  /** `rag_chain.invoke(question)`; Failure is an exception it raises. */
  type Answerer = (Demystifier.RagChain, string) -> Result<string, string>

  /** `legal_agent.invoke`; Failure is an exception it raises. */
  type LegalAgent = string -> Result<AgentResult, string>

  /** FPDF rendering the markup (`write_html`, then `output()`): done, or the
      error it raises. The bytes it produces are not modelled. */
  type Renderer = string -> Result<(), string>

  /** `scheme_chatbot.invoke` and `ask_gemini`. */
  type Chatbot = string -> Result<string, string>

  // ---------------------------------------------------------------------------
  // Lookups
  // ---------------------------------------------------------------------------

  /** `get_session_data`: the entry, or 404 (an entry is a non-empty dict,
      so never falsy). */
  function GetSession(st: Server, id: string): (r: Result<Session, Refusal>)
    ensures r.Success? <==> id in st.sessions.entries
    ensures r.Success? ==> r.value == st.sessions.entries[id]
    ensures r.Failure? ==> r.error == Http(404, SessionNotFound)
  {
    match Get(st.sessions, id)
    case Some(session) => Success(session)
    case None => Failure(Http(404, SessionNotFound))
  }

  /** `get_contract_data`. */
  function GetContractData(st: Server, id: string): (r: Result<Contract, Refusal>)
    ensures r.Success? <==> id in st.contracts.entries
    ensures r.Success? ==> r.value == st.contracts.entries[id]
    ensures r.Failure? ==> r.error == Http(404, ContractNotFound)
  {
    match Get(st.contracts, id)
    case Some(contract) => Success(contract)
    case None => Failure(Http(404, ContractNotFound))
  }

  // ---------------------------------------------------------------------------
  // Demystifier endpoints
  // ---------------------------------------------------------------------------

  /** `os.path.join("pdfs_demystify", f"{uuid}_{filename}")`. */
  function SavedPdfPath(token: string, filename: string): string {
    PdfUploadDir + "/" + token + "_" + filename
  }

  /** Whether an upload's declared size is over a limit: `file.size and
      file.size > limit` (an unknown or zero size is never too large). */
  predicate TooLarge(size: Option<nat>, limit: nat) {
    size.Some? && size.value != 0 && size.value > limit
  }

  /** `POST /api/v1/demystify/upload`. The upload is saved before it is
      processed, so a processing failure leaves the file behind. */
  function UploadDocument(st: Server, up: Upload, token: string, sessionId: string, now: string, process: Processor): (s: Step)
    requires ServerValid(st)
    ensures ServerValid(s.server)
    ensures s.server.contracts == st.contracts && s.server.videos == st.videos
  {
    if up.contentType != PdfContentType then Step(st, Failure(Http(400, InvalidPdf)))
    else if TooLarge(up.size, PdfSizeLimit) then Step(st, Failure(Http(400, PdfTooLarge)))
    else
      var path := SavedPdfPath(token, up.filename);
      var saved := st.(pdfFiles := st.pdfFiles + {path});
      match process(path)
      case Failure(e) => Step(saved, Failure(Http(500, "Document processing failed: " + e)))
      case Success(analysis) =>
        var session := Session(analysis.ragChain, path, now, up.filename);
        Step(saved.(sessions := Put(st.sessions, sessionId, session)),
             Success(SessionCreated(sessionId, analysis.report, up.filename, now)))
  }

  /** `POST /api/v1/demystify/chat`: validation, then the lookup, then the
      chain. Nothing changes. */
  function Chat(st: Server, sessionId: string, question: string, answer: Answerer): (r: Result<Reply, Refusal>)
    ensures ValidateQuestion(question).Failure? ==> r == Failure(Invalid(ValidateQuestion(question).error))
    ensures ValidateQuestion(question).Success? && sessionId !in st.sessions.entries ==>
              r == Failure(Http(404, SessionNotFound))
    ensures r.Success? <==>
              && ValidateQuestion(question).Success?
              && sessionId in st.sessions.entries
              && answer(st.sessions.entries[sessionId].ragChain, question).Success?
    ensures r.Success? ==>
              r.value == Answered(answer(st.sessions.entries[sessionId].ragChain, question).value, sessionId, question)
  {
    match ValidateQuestion(question)
    case Failure(e) => Failure(Invalid(e))
    case Success(q) =>
      match GetSession(st, sessionId)
      case Failure(e) => Failure(e)
      case Success(session) =>
        match answer(session.ragChain, q)
        case Failure(e) => Failure(Http(500, "Chat processing failed: " + e))
        case Success(a) => Success(Answered(a, sessionId, q))
  }

  /** `GET /api/v1/demystify/sessions`: one summary per session, in
      insertion order. */
  function ListSessions(st: Server): (sessions: seq<SessionSummary>)
    requires ServerValid(st)
    ensures |sessions| == |st.sessions.order|
    ensures forall i :: 0 <= i < |sessions| ==>
              var id := st.sessions.order[i];
              sessions[i] == SessionSummary(id, st.sessions.entries[id].filename, st.sessions.entries[id].uploadTime)
  {
    var items := Items(st.sessions);
    seq(|items|, i requires 0 <= i < |items| => SessionSummary(items[i].0, items[i].1.filename, items[i].1.uploadTime))
  }

  /** `DELETE /api/v1/demystify/sessions/{id}`: the entry and its saved file go. */
  function DeleteSession(st: Server, id: string): (s: Step)
    requires ServerValid(st)
    ensures ServerValid(s.server)
    ensures s.server.contracts == st.contracts && s.server.videos == st.videos
  {
    match GetSession(st, id)
    case Failure(e) => Step(st, Failure(e))
    case Success(session) =>
      Step(st.(sessions := Remove(st.sessions, id), pdfFiles := st.pdfFiles - {session.filePath}), Success(Deleted))
  }

  // ---------------------------------------------------------------------------
  // Contract endpoints
  // ---------------------------------------------------------------------------

  /** `result.get(key, default)`. */
  function OrDefault(x: Option<string>, default: string): string {
    match x
    case Some(v) => v
    case None => default
  }

  /** `POST /api/v1/contracts/generate`. */
  function GenerateContract(st: Server, raw: string, agent: LegalAgent, contractId: string, now: string): (s: Step)
    requires ServerValid(st)
    ensures ServerValid(s.server)
    ensures s.server.sessions == st.sessions && s.server.pdfFiles == st.pdfFiles && s.server.videos == st.videos
  {
    match ValidateRequest(raw)
    case Failure(e) => Step(st, Failure(Invalid(e)))
    case Success(request) =>
      match agent(request)
      case Failure(e) => Step(st, Failure(Http(500, "Contract generation failed: " + e)))
      case Success(result) =>
        var contract := Contract(result.legalDoc, result.legalTrivia, now, request);
        Step(st.(contracts := Put(st.contracts, contractId, contract)),
             Success(ContractCreated(contractId, OrDefault(result.legalDoc, ""), result.legalTrivia, now)))
  }

  /** The markup a contract's PDF is rendered from: the agent's document
      text, or the fixed error text when it returned none. */
  function ContractMarkup(result: AgentResult): string {
    PdfText.PdfMarkup(OrDefault(result.legalDoc, MissingContractText))
  }

  /** `POST /api/v1/contracts/generate-pdf`: the markup handed to the PDF
      writer and the attachment name; nothing is cached. The agent call and
      the rendering share one `try`, so an error of either gives 500. */
  function GenerateContractPdf(raw: string, agent: LegalAgent, render: Renderer, stamp: string): (r: Result<Reply, Refusal>)
    ensures ValidateRequest(raw).Failure? ==> r == Failure(Invalid(ValidateRequest(raw).error))
    ensures r.Success? <==>
              && ValidateRequest(raw).Success?
              && agent(ValidateRequest(raw).value).Success?
              && render(ContractMarkup(agent(ValidateRequest(raw).value).value)).Success?
    ensures r.Success? ==> r.value.ContractPdf? && r.value.filename == "contract_" + stamp + ".pdf"
    ensures ValidateRequest(raw).Success? && r.Failure? ==> StatusOf(r.error) == 500
  {
    match ValidateRequest(raw)
    case Failure(e) => Failure(Invalid(e))
    case Success(request) =>
      match agent(request)
      case Failure(e) => Failure(Http(500, PdfFailed + e))
      case Success(result) =>
        var markup := ContractMarkup(result);
        match render(markup)
        case Failure(e) => Failure(Http(500, PdfFailed + e))
        case Success(_) => Success(ContractPdf(markup, "contract_" + stamp + ".pdf"))
  }

  /** `GET /api/v1/contracts/{id}`. */
  function GetContract(st: Server, id: string): (r: Result<Reply, Refusal>)
    ensures r.Success? <==> id in st.contracts.entries
    ensures r.Success? ==> r.value == ContractFound(st.contracts.entries[id])
    ensures r.Failure? ==> StatusOf(r.error) == 404
  {
    match GetContractData(st, id)
    case Failure(e) => Failure(e)
    case Success(contract) => Success(ContractFound(contract))
  }

  /** `text[:100] + "..."`. */
  function Preview(text: string): (p: string)
    ensures |p| == Min(PreviewLength, |text|) + |PreviewMark|
    ensures p[..|p| - |PreviewMark|] == text[..Min(PreviewLength, |text|)]
    ensures p[|p| - |PreviewMark|..] == PreviewMark
  {
    var head := if |text| <= PreviewLength then text else text[..PreviewLength];
    head + PreviewMark
  }

  function Summarize(id: string, c: Contract): ContractSummary {
    ContractSummary(id, Preview(OrDefault(c.legalDoc, "")), c.createdAt, Preview(c.userRequest))
  }

  /** `GET /api/v1/contracts`: one summary per contract, in insertion order. */
  function ListContracts(st: Server): (contracts: seq<ContractSummary>)
    requires ServerValid(st)
    ensures |contracts| == |st.contracts.order|
    ensures forall i :: 0 <= i < |contracts| ==>
              contracts[i] == Summarize(st.contracts.order[i], st.contracts.entries[st.contracts.order[i]])
  {
    var items := Items(st.contracts);
    seq(|items|, i requires 0 <= i < |items| => Summarize(items[i].0, items[i].1))
  }

  /** `f"consent_{contract_id}_"`: the prefix that ties a video to a contract. */
  function VideoPrefix(contractId: string): string {
    VideoLead + contractId + "_"
  }

  /** `f"consent_{contract_id}_{uuid}.mp4"`. */
  function VideoName(contractId: string, token: string): string {
    VideoPrefix(contractId) + token + VideoExtension
  }

  /** The files in the video directory that the prefix filter picks for a
      contract (the directory listing order is not modelled). */
  function VideosOf(videos: set<string>, contractId: string): (r: set<string>)
    ensures forall v :: v in r <==> v in videos && StartsWith(v, VideoPrefix(contractId))
  {
    set v | v in videos && StartsWith(v, VideoPrefix(contractId))
  }

  /** `DELETE /api/v1/contracts/{id}`: the entry and every video the prefix
      filter picks go. */
  function DeleteContract(st: Server, id: string): (s: Step)
    requires ServerValid(st)
    ensures ServerValid(s.server)
    ensures s.server.sessions == st.sessions && s.server.pdfFiles == st.pdfFiles
  {
    match GetContractData(st, id)
    case Failure(e) => Step(st, Failure(e))
    case Success(_) =>
      Step(st.(contracts := Remove(st.contracts, id), videos := st.videos - VideosOf(st.videos, id)), Success(Deleted))
  }

  // ---------------------------------------------------------------------------
  // Scheme finder and assistant
  // ---------------------------------------------------------------------------

  /** `POST /api/v1/schemes/find`. */
  function FindSchemes(raw: string, chatbot: Chatbot): (r: Result<Reply, Refusal>)
    ensures ValidateProfile(raw).Failure? ==> r == Failure(Invalid(ValidateProfile(raw).error))
  {
    match ValidateProfile(raw)
    case Failure(e) => Failure(Invalid(e))
    case Success(profile) =>
      match chatbot(profile)
      case Failure(e) => Failure(Http(500, "Scheme search failed: " + e))
      case Success(response) => Success(Schemes(response))
  }

  /** `POST /api/v1/assistant/chat`. */
  function GeneralChat(question: string, ask: Chatbot): (r: Result<Reply, Refusal>)
    ensures ValidateQuestion(question).Failure? ==> r.Failure? && StatusOf(r.error) == 422
  {
    match ValidateQuestion(question)
    case Failure(e) => Failure(Invalid(e))
    case Success(q) =>
      match ask(q)
      case Failure(e) => Failure(Http(500, "AI response generation failed: " + e))
      case Success(response) => Success(Assistant(response, q))
  }

  // ---------------------------------------------------------------------------
  // Media endpoints
  // ---------------------------------------------------------------------------

  /** `POST /api/v1/media/upload-video`. The contract id is not looked up. */
  function UploadVideo(st: Server, up: Upload, contractId: string, consentText: string, token: string): (s: Step)
    ensures s.server.sessions == st.sessions && s.server.contracts == st.contracts && s.server.pdfFiles == st.pdfFiles
  {
    if up.contentType !in AllowedVideoTypes then
      Step(st, Failure(Http(400, InvalidVideoLead + Join(AllowedVideoTypes, ", "))))
    else if TooLarge(up.size, VideoSizeLimit) then Step(st, Failure(Http(400, VideoTooLarge)))
    else
      var name := VideoName(contractId, token);
      Step(st.(videos := st.videos + {name}),
           Success(VideoStored(VideoDir + "/" + name, contractId, name, up.size, consentText)))
  }

  /** `GET /api/v1/media/videos/{contract_id}`. */
  function ContractVideos(st: Server, contractId: string): (r: Reply)
    ensures r.VideoList?
    ensures forall v :: v in r.filenames <==> v in st.videos && StartsWith(v, VideoPrefix(contractId))
  {
    VideoList(VideosOf(st.videos, contractId))
  }

  // ---------------------------------------------------------------------------
  // Properties of the handlers
  // ---------------------------------------------------------------------------

  /** An upload is refused with 400 exactly when it is not declared as a PDF
      or is declared larger than 50 MiB; a refused upload changes nothing. */
  lemma UploadRefusal(st: Server, up: Upload, token: string, sessionId: string, now: string, process: Processor)
    requires ServerValid(st)
    ensures var s := UploadDocument(st, up, token, sessionId, now, process);
            (s.outcome.Failure? && StatusOf(s.outcome.error) == 400)
            <==> (up.contentType != PdfContentType || TooLarge(up.size, PdfSizeLimit))
    ensures var s := UploadDocument(st, up, token, sessionId, now, process);
            up.contentType != PdfContentType || TooLarge(up.size, PdfSizeLimit) ==> s.server == st
  {
  }

  /** A processed upload adds exactly one session, under the fresh id, at the
      end of the listing, holding the chain, the saved path, the time and the
      file name; the saved file is recorded. */
  lemma UploadAddsOneSession(st: Server, up: Upload, token: string, sessionId: string, now: string, process: Processor)
    requires ServerValid(st)
    requires up.contentType == PdfContentType && !TooLarge(up.size, PdfSizeLimit)
    requires process(SavedPdfPath(token, up.filename)).Success?
    requires sessionId !in st.sessions.entries
    ensures var s := UploadDocument(st, up, token, sessionId, now, process);
            var path := SavedPdfPath(token, up.filename);
            var analysis := process(path).value;
            var session := Session(analysis.ragChain, path, now, up.filename);
            && s.outcome == Success(SessionCreated(sessionId, analysis.report, up.filename, now))
            && s.server.sessions.entries == st.sessions.entries[sessionId := session]
            && Items(s.server.sessions) == Items(st.sessions) + [(sessionId, session)]
            && |s.server.sessions.entries| == |st.sessions.entries| + 1
            && s.server.pdfFiles == st.pdfFiles + {path}
  {
    var path := SavedPdfPath(token, up.filename);
    var session := Session(process(path).value.ragChain, path, now, up.filename);
    ItemsAfterPut(st.sessions, sessionId, session);
  }

  /** When processing raises, the reply is 500 and no session is added, but
      the saved file stays on disk. */
  lemma UploadFailureLeavesFile(st: Server, up: Upload, token: string, sessionId: string, now: string, process: Processor)
    requires ServerValid(st)
    requires up.contentType == PdfContentType && !TooLarge(up.size, PdfSizeLimit)
    requires process(SavedPdfPath(token, up.filename)).Failure?
    ensures var s := UploadDocument(st, up, token, sessionId, now, process);
            && s.outcome.Failure? && StatusOf(s.outcome.error) == 500
            && s.server.sessions == st.sessions
            && SavedPdfPath(token, up.filename) in s.server.pdfFiles
  {
  }

  /** The session id an upload returns can be chatted with straight away:
      the question goes to the chain built from that document. */
  lemma ChatAfterUpload(st: Server, up: Upload, token: string, sessionId: string, now: string, process: Processor,
                        question: string, answer: Answerer)
    requires ServerValid(st)
    requires UploadDocument(st, up, token, sessionId, now, process).outcome.Success?
    requires 1 <= |question| <= MaxQuestionLength
    requires answer(process(SavedPdfPath(token, up.filename)).value.ragChain, question).Success?
    ensures var s := UploadDocument(st, up, token, sessionId, now, process);
            var a := answer(process(SavedPdfPath(token, up.filename)).value.ragChain, question).value;
            Chat(s.server, sessionId, question, answer) == Success(Answered(a, sessionId, question))
  {
  }

  /** Chatting with an unknown session fails with 404 once the question is
      valid; an invalid question is refused with 422 first. */
  lemma ChatUnknownSession(st: Server, sessionId: string, question: string, answer: Answerer)
    requires sessionId !in st.sessions.entries
    ensures 1 <= |question| <= MaxQuestionLength ==>
              Chat(st, sessionId, question, answer) == Failure(Http(404, SessionNotFound))
    ensures !(1 <= |question| <= MaxQuestionLength) ==>
              Chat(st, sessionId, question, answer).Failure? && StatusOf(Chat(st, sessionId, question, answer).error) == 422
  {
  }

  /** Deleting a session removes that key only (and its saved file); a later
      chat with it fails with 404. Deleting an unknown id fails with 404 and
      changes nothing. */
  lemma DeleteSessionEffect(st: Server, id: string, other: string, question: string, answer: Answerer)
    requires ServerValid(st)
    ensures var s := DeleteSession(st, id);
            id !in st.sessions.entries ==> s == Step(st, Failure(Http(404, SessionNotFound)))
    ensures var s := DeleteSession(st, id);
            id in st.sessions.entries ==>
              && s.outcome == Success(Deleted)
              && s.server.sessions.entries == st.sessions.entries - {id}
              && s.server.pdfFiles == st.pdfFiles - {st.sessions.entries[id].filePath}
              && (other != id ==> GetSession(s.server, other) == GetSession(st, other))
              && (1 <= |question| <= MaxQuestionLength ==>
                    Chat(s.server, id, question, answer) == Failure(Http(404, SessionNotFound)))
  {
  }

  /** The session listing has one entry per cached session. */
  lemma ListSessionsCount(st: Server)
    requires ServerValid(st)
    ensures |ListSessions(st)| == |st.sessions.entries|
  {
    ItemsCount(st.sessions);
  }

  /** A generated contract is cached under the fresh id with the stripped
      request, and can be fetched back. */
  lemma GenerateThenGet(st: Server, raw: string, agent: LegalAgent, contractId: string, now: string)
    requires ServerValid(st)
    requires MinTextLength <= |raw| <= MaxTextLength && |Strip(raw)| >= MinTextLength
    requires agent(Strip(raw)).Success?
    ensures var s := GenerateContract(st, raw, agent, contractId, now);
            var result := agent(Strip(raw)).value;
            var contract := Contract(result.legalDoc, result.legalTrivia, now, Strip(raw));
            && s.server.contracts.entries == st.contracts.entries[contractId := contract]
            && GetContract(s.server, contractId) == Success(ContractFound(contract))
  {
  }

  /** A request the validators refuse reaches neither the agent nor the cache. */
  lemma InvalidRequestChangesNothing(st: Server, raw: string, agent: LegalAgent, contractId: string, now: string)
    requires ServerValid(st)
    requires !(MinTextLength <= |raw| <= MaxTextLength && |Strip(raw)| >= MinTextLength)
    ensures var s := GenerateContract(st, raw, agent, contractId, now);
            s.server == st && s.outcome.Failure? && StatusOf(s.outcome.error) == 422
  {
  }

  /** A contract listing has one summary per contract; each preview is at
      most 100 characters of the text followed by `...`. */
  lemma ListContractsShape(st: Server, i: nat)
    requires ServerValid(st) && i < |st.contracts.order|
    ensures |ListContracts(st)| == |st.contracts.entries|
    ensures var c := ListContracts(st)[i];
            && c.id == st.contracts.order[i]
            && |c.userRequest| <= PreviewLength + |PreviewMark|
            && StartsWith(c.userRequest, st.contracts.entries[c.id].userRequest[..Min(PreviewLength, |st.contracts.entries[c.id].userRequest|)])
            && c.userRequest[|c.userRequest| - |PreviewMark|..] == PreviewMark
  {
    ItemsCount(st.contracts);
  }

  /** The PDF of a contract is the latin-1-safe markup of the agent's text,
      or of the fixed error text when the agent returned none. */
  lemma ContractPdfText(raw: string, agent: LegalAgent, render: Renderer, stamp: string)
    requires ValidateRequest(raw).Success? && agent(ValidateRequest(raw).value).Success?
    requires render(ContractMarkup(agent(ValidateRequest(raw).value).value)).Success?
    ensures var r := GenerateContractPdf(raw, agent, render, stamp);
            var result := agent(ValidateRequest(raw).value).value;
            && r.Success?
            && r.value.markup == PdfText.PdfMarkup(if result.legalDoc.Some? then result.legalDoc.value else MissingContractText)
            && PdfText.IsLatin1(r.value.markup)
  {
  }

  /** A video upload is refused with 400 exactly when its type is not on the
      allow-list or it is declared larger than 100 MiB; whether the contract
      exists plays no part. */
  lemma VideoRefusal(st: Server, up: Upload, contractId: string, consentText: string, token: string)
    ensures var s := UploadVideo(st, up, contractId, consentText, token);
            s.outcome.Failure? <==> (up.contentType !in AllowedVideoTypes || TooLarge(up.size, VideoSizeLimit))
    ensures var s := UploadVideo(st, up, contractId, consentText, token);
            s.outcome.Failure? ==> s.server == st && StatusOf(s.outcome.error) == 400
  {
  }

  /** A stored video's name carries its contract's prefix, so the listing
      for the contract shows it and deleting the contract removes it. */
  lemma VideoFollowsItsContract(st: Server, up: Upload, contractId: string, consentText: string, token: string)
    requires ServerValid(st)
    requires up.contentType in AllowedVideoTypes && !TooLarge(up.size, VideoSizeLimit)
    requires contractId in st.contracts.entries
    ensures var s := UploadVideo(st, up, contractId, consentText, token);
            && VideoName(contractId, token) in ContractVideos(s.server, contractId).filenames
            && VideoName(contractId, token) !in DeleteContract(s.server, contractId).server.videos
  {
    var name := VideoName(contractId, token);
    assert name[..|VideoPrefix(contractId)|] == VideoPrefix(contractId);
  }

  /** Deleting a contract keeps exactly the videos whose names do not carry
      its prefix, and a later lookup of it fails with 404. */
  lemma DeleteContractEffect(st: Server, id: string, v: string)
    requires ServerValid(st) && id in st.contracts.entries
    ensures var s := DeleteContract(st, id);
            && s.server.contracts.entries == st.contracts.entries - {id}
            && (v in s.server.videos <==> v in st.videos && !StartsWith(v, VideoPrefix(id)))
            && GetContract(s.server, id).Failure?
  {
  }

  /** For ids without `_` (as uuid4 strings are), a video name carries a
      contract's prefix exactly when it was stored for that contract. */
  lemma PrefixIdentifiesContract(c1: string, c2: string, token: string)
    requires '_' !in c1 && '_' !in c2
    ensures StartsWith(VideoName(c2, token), VideoPrefix(c1)) <==> c1 == c2
  {
    if c1 == c2 {
      assert VideoName(c2, token)[..|VideoPrefix(c1)|] == VideoPrefix(c1);
    } else {
      DistinctIdsDiffer(c1, c2, token);
    }
  }

  /** Two different `_`-free ids disagree at some position of the shorter
      prefix: a character of one id against another, or `_` against a
      character of the longer id. */
  lemma DistinctIdsDiffer(c1: string, c2: string, token: string)
    requires '_' !in c1 && '_' !in c2 && c1 != c2
    ensures !StartsWith(VideoName(c2, token), VideoPrefix(c1))
  {
    var name := VideoName(c2, token);
    var p := VideoPrefix(c1);
    var n := |VideoLead|;
    var j: nat;
    if |c1| < |c2| {
      j := n + |c1|;
      assert p[j] == '_' && name[j] == c2[|c1|];
    } else if |c1| > |c2| {
      j := n + |c2|;
      assert name[j] == '_' && p[j] == c1[|c2|];
    } else {
      var i :| 0 <= i < |c1| && c1[i] != c2[i];
      j := n + i;
      assert p[j] == c1[i] && name[j] == c2[i];
    }
    assert j < |p| && j < |name| && p[j] != name[j];
  }

  /** An id that extends another with `_` shares its prefix: the videos of
      contract `a_b` are listed for contract `a` and go when `a` is deleted. */
  lemma PrefixCollision()
    ensures StartsWith(VideoName("a_b", "t"), VideoPrefix("a"))
  {
    var name := VideoName("a_b", "t");
    assert name == VideoPrefix("a") + "b_t.mp4";
    assert name[..|VideoPrefix("a")|] == VideoPrefix("a");
  }
}

=== FILE: demystifier.dfy ===
/** The document demystifier (agents/demystifier_agent.py): a three-node graph
    that summarises a document, asks the model for its key legal terms, and
    enriches each term with a web-search-grounded explanation parsed out of the
    model's `Explanation:` / `URL:` answer.

    The hosted model (`groq_llm.invoke(..).content`) and the web search
    (`legal_search.invoke`) are uninterpreted functions; the PDF loader, text
    splitter and vector store are represented by the chunk list they produce. */
module Demystifier {
  import opened Wrappers
  import opened Text

  // ---------------------------------------------------------------------------
  // Data model
  // ---------------------------------------------------------------------------

  datatype ExplainedTerm = ExplainedTerm(term: string, explanation: string, resourceLink: string)

  datatype DemystifyReport = DemystifyReport(summary: string, keyTerms: seq<ExplainedTerm>, overallAdvice: string)

  /** The question-answering chain: a retriever over the document's chunks
      returning the `topK` nearest ones, feeding the model. */
  datatype RagChain = RagChain(chunks: seq<string>, topK: nat)

  /** What `process_document_for_demystification` hands back. */
  datatype Analysis = Analysis(report: Option<DemystifyReport>, ragChain: RagChain)

  /** The hosted text-generation model: prompt in, response content out, or
      the error the call raises. */
  type Llm = string -> Result<string, string>

  /** The web search tool: query in, rendered results out, or the error the
      call raises. */
  type Search = string -> Result<string, string>

  /** Building the vector store over the chunks (`FAISS.from_documents` with
      the embedding model): done, or the error it raises. What it builds is
      represented by the chunk list itself. */
  type IndexBuild = seq<string> -> Result<(), string>

  const ChunkSeparator := "\n\n"
  const ContextLimit := 2000
  const RetrieverTopK := 3
  const ExplanationMarker := "Explanation:"
  const UrlMarker := "URL:"
  const FallbackExplanation := "Could not generate a simple explanation for this term."
  const FallbackLink := "No link found."
  const OverallAdvice := "This is an automated analysis. For critical matters, please consult with a qualified legal professional."

  // The fixed wording of the prompts, piece by piece.
  const SummarizeLead := "You are a paralegal expert... Document Content:\n"
  const IdentifyTermsLead := "Based on the following legal document, identify the 3-5 most critical legal terms... Document Content:\n"
  const QueryLead := "simple explanation of legal term '"
  const QueryTail := "' in Indian law"
  const TermIntro := "A user is reading a legal document that contains the term \""
  const ContextIntro := "\".\n        Overall document context is: "
  const SearchIntro := "\n        Web search results for \""
  const ResultsIntro := "\" are: "
  const FormatInstructions := "\n        Format your response strictly as:\n        Explanation: [Your simple, one-sentence explanation here]\n        URL: [The best, full, working URL from the search results]"

  // ---------------------------------------------------------------------------
  // Prompts
  // ---------------------------------------------------------------------------

  /** The whole document as one text: the chunks joined by a blank line. */
  function DocumentContext(chunks: seq<string>): string {
    Join(chunks, ChunkSeparator)
  }

  function SummarizePrompt(context: string): string {
    SummarizeLead + context
  }

  function IdentifyTermsPrompt(context: string): string {
    IdentifyTermsLead + context
  }

  function SearchQuery(term: string): string {
    QueryLead + term + QueryTail
  }

  /** `document_context[:2000]`: the first min(2000, n) characters. */
  function ContextCap(context: string): (capped: string)
    ensures |capped| == Min(ContextLimit, |context|)
    ensures capped == context[..|capped|]
  {
    if |context| <= ContextLimit then context else context[..ContextLimit]
  }

  function EnrichmentPromptLead(term: string): string {
    TermIntro + term + ContextIntro
  }

  function EnrichmentPromptTail(term: string, searchResults: string): string {
    SearchIntro + term + ResultsIntro + searchResults + FormatInstructions
  }

  /** The per-term enrichment prompt, with `context` already capped by the caller. */
  function EnrichmentPrompt(term: string, context: string, searchResults: string): string {
    EnrichmentPromptLead(term) + context + EnrichmentPromptTail(term, searchResults)
  }

  /** The prompt carries exactly the first min(2000, n) characters of the
      document, so its size does not grow with the document beyond that. */
  lemma EnrichmentPromptCarriesCappedContext(term: string, context: string, searchResults: string)
    ensures var p := EnrichmentPrompt(term, ContextCap(context), searchResults);
            && OccursAt(p, context[..Min(ContextLimit, |context|)], |EnrichmentPromptLead(term)|)
            && |p| <= |EnrichmentPrompt(term, "", searchResults)| + ContextLimit
  {
    var lead := EnrichmentPromptLead(term);
    var capped := ContextCap(context);
    var p := EnrichmentPrompt(term, capped, searchResults);
    assert p[|lead|..|lead| + |capped|] == capped;
  }

  // ---------------------------------------------------------------------------
  // identify_terms_node: the comma-separated term list
  // ---------------------------------------------------------------------------

  /** `[f.strip() for f in fields if f.strip()]`. */
  function KeepNonBlank(fields: seq<string>): (terms: seq<string>)
    ensures |terms| <= |fields|
  {
    if fields == [] then []
    else
      var t := Strip(fields[0]);
      (if t != "" then [t] else []) + KeepNonBlank(fields[1..])
  }

  /** Every kept field is non-blank and already stripped. */
  lemma {:induction false} KeepNonBlankTerms(fields: seq<string>)
    ensures forall i :: 0 <= i < |KeepNonBlank(fields)| ==>
              KeepNonBlank(fields)[i] != "" && IsStripped(KeepNonBlank(fields)[i])
    decreases |fields|
  {
    if fields != [] {
      KeepNonBlankTerms(fields[1..]);
    }
  }

  lemma {:induction false} KeepNonBlankConcat(a: seq<string>, b: seq<string>)
    ensures KeepNonBlank(a + b) == KeepNonBlank(a) + KeepNonBlank(b)
    decreases |a|
  {
    if a != [] {
      var t := Strip(a[0]);
      var head := if t != "" then [t] else [];
      assert (a + b)[0] == a[0];
      assert (a + b)[1..] == a[1..] + b;
      assert KeepNonBlank(a + b) == head + KeepNonBlank(a[1..] + b);
      assert KeepNonBlank(a) == head + KeepNonBlank(a[1..]);
      KeepNonBlankConcat(a[1..], b);
    } else {
      assert a + b == b;
    }
  }

  lemma {:induction false} KeepNonBlankAvoids(fields: seq<string>, c: char)
    requires forall j :: 0 <= j < |fields| ==> c !in fields[j]
    ensures forall i :: 0 <= i < |KeepNonBlank(fields)| ==> c !in KeepNonBlank(fields)[i]
    decreases |fields|
  {
    if fields != [] {
      KeepNonBlankAvoids(fields[1..], c);
      StripAvoids(fields[0], c);
    }
  }

  /** The term list parsed from the model's answer to the key-terms prompt:
      the comma-separated fields, stripped, blank ones dropped. Every term is
      non-empty and already stripped (`strip()` leaves it alone), and there
      are at most one more terms than commas; nothing caps the list at five. */
  function ParseTerms(response: string): (terms: seq<string>)
    ensures forall i :: 0 <= i < |terms| ==> terms[i] != "" && IsStripped(terms[i])
    ensures |terms| <= multiset(response)[','] + 1
  {
    var fields := Split(response, ",");
    SplitCharCount(response, ',');
    KeepNonBlankTerms(fields);
    KeepNonBlank(fields)
  }

  /** No parsed term contains a comma. */
  lemma ParsedTermsHaveNoComma(response: string)
    ensures forall i :: 0 <= i < |ParseTerms(response)| ==> ',' !in ParseTerms(response)[i]
  {
    var fields := Split(response, ",");
    SplitFieldsAreFree(response, ",");
    forall j, k | 0 <= j < |fields| && 0 <= k < |fields[j]|
      ensures fields[j][k] != ','
    {
      OccursAtChar(fields[j], ',', k);
    }
    KeepNonBlankAvoids(fields, ',');
  }

  /** A single field parses to its stripped text, or to nothing when blank. */
  lemma ParseTermsOfField(field: string)
    requires ',' !in field
    ensures ParseTerms(field) == (if Strip(field) == "" then [] else [Strip(field)])
  {
    SplitCharAbsent(field, ',');
  }

  /** Parsing distributes over a comma: the fields of each side, in order. */
  lemma ParseTermsConcat(x: string, y: string)
    ensures ParseTerms(x + "," + y) == ParseTerms(x) + ParseTerms(y)
  {
    SplitCharConcat(x, ',', y);
    KeepNonBlankConcat(Split(x, ","), Split(y, ","));
  }

  /** Well-formed terms: non-empty, already stripped, without a comma. */
  ghost predicate WellFormedTerms(ts: seq<string>) {
    forall i :: 0 <= i < |ts| ==> ts[i] != "" && IsStripped(ts[i]) && ',' !in ts[i]
  }

  /** The fields `split(',')` cuts from `pad + ", ".join(ts)`: the first term
      behind `pad`, each later one behind the space of its separator. */
  function JoinedFields(pad: string, ts: seq<string>): seq<string>
    requires |ts| >= 1
    decreases |ts|
  {
    [pad + ts[0]] + (if |ts| == 1 then [] else JoinedFields(" ", ts[1..]))
  }

  lemma CommaSpaceJoinUnfold(pad: string, ts: seq<string>)
    requires |ts| >= 2
    ensures pad + Join(ts, ", ") == (pad + ts[0]) + "," + (" " + Join(ts[1..], ", "))
  {
    var rest := Join(ts[1..], ", ");
    assert Join(ts, ", ") == ts[0] + ", " + rest;
  }

  lemma {:induction false} SplitCommaJoin(pad: string, ts: seq<string>)
    requires |ts| >= 1
    requires ',' !in pad
    requires forall i :: 0 <= i < |ts| ==> ',' !in ts[i]
    ensures Split(pad + Join(ts, ", "), ",") == JoinedFields(pad, ts)
    decreases |ts|
  {
    SplitCharAbsent(pad + ts[0], ',');
    if |ts| == 1 {
      assert pad + Join(ts, ", ") == pad + ts[0];
    } else {
      CommaSpaceJoinUnfold(pad, ts);
      SplitCharConcat(pad + ts[0], ',', " " + Join(ts[1..], ", "));
      SplitCommaJoin(" ", ts[1..]);
    }
  }

  lemma {:induction false} KeepJoinedFields(pad: string, ts: seq<string>)
    requires |ts| >= 1
    requires AllSpace(pad)
    requires forall i :: 0 <= i < |ts| ==> ts[i] != "" && IsStripped(ts[i])
    ensures KeepNonBlank(JoinedFields(pad, ts)) == ts
    decreases |ts|
  {
    var fields := JoinedFields(pad, ts);
    StripPadding(pad, ts[0], []);
    assert pad + ts[0] + [] == pad + ts[0];
    assert fields[0] == pad + ts[0];
    assert KeepNonBlank(fields) == [ts[0]] + KeepNonBlank(fields[1..]);
    if |ts| == 1 {
      assert fields[1..] == [];
    } else {
      assert fields[1..] == JoinedFields(" ", ts[1..]);
      assert AllSpace(" ");
      KeepJoinedFields(" ", ts[1..]);
      assert [ts[0]] + ts[1..] == ts;
    }
  }

  /** Round trip: a list of well-formed terms written as the prompt asks for
      it (", "-separated) parses back to the same list. */
  lemma ParseTermsJoin(ts: seq<string>)
    requires WellFormedTerms(ts)
    ensures ParseTerms(Join(ts, ", ")) == ts
  {
    if ts == [] {
      SplitCharAbsent("", ',');
      assert KeepNonBlank([""]) == [];
    } else {
      SplitCommaJoin("", ts);
      assert "" + Join(ts, ", ") == Join(ts, ", ");
      KeepJoinedFields("", ts);
    }
  }

  /** The list is not capped at five terms. */
  lemma TermListIsNotCapped()
    ensures |ParseTerms(Join(["a", "b", "c", "d", "e", "f"], ", "))| == 6
  {
    var ts := ["a", "b", "c", "d", "e", "f"];
    assert WellFormedTerms(ts) by {
      forall i | 0 <= i < |ts|
        ensures ts[i] != "" && IsStripped(ts[i]) && ',' !in ts[i]
      {
        assert |ts[i]| == 1 && ts[i][0] in "abcdef";
      }
    }
    ParseTermsJoin(ts);
  }

  // ---------------------------------------------------------------------------
  // generate_report_node: the Explanation: / URL: answer
  // ---------------------------------------------------------------------------

  datatype Enrichment = Enrichment(explanation: string, link: string)

  /** The body of the `try` block: `Failure` is the IndexError raised by
      `split("Explanation:")[1]`, which happens exactly when the marker is
      missing; a missing `URL:` raises nothing. */
  function TryParseEnrichment(response: string): (r: Result<Enrichment, ()>)
    ensures r.Failure? <==> !Contains(response, ExplanationMarker)
  {
    SplitIsSingleton(response, ExplanationMarker);
    var pieces := Split(response, ExplanationMarker);
    if |pieces| < 2 then Failure(())
    else
      var explanation := Strip(Split(pieces[1], UrlMarker)[0]);
      var link := Strip(Last(Split(response, UrlMarker)));
      Success(Enrichment(explanation, link))
  }

  /** The parsed answer, with the fixed fallback pair when the parse raises. */
  function ParseEnrichment(response: string): (e: Enrichment)
    ensures !Contains(response, ExplanationMarker) ==> e == Enrichment(FallbackExplanation, FallbackLink)
    ensures Contains(response, ExplanationMarker) ==> e == TryParseEnrichment(response).value
  {
    match TryParseEnrichment(response)
    case Success(parsed) => parsed
    case Failure(_) => Enrichment(FallbackExplanation, FallbackLink)
  }

  ghost predicate MarkerFree(t: string) {
    !Contains(t, ExplanationMarker) && !Contains(t, UrlMarker)
  }

  ghost predicate MarkerAt(s: string, j: int) {
    OccursAt(s, ExplanationMarker, j) || OccursAt(s, UrlMarker, j)
  }

  /** `response[i + 12..j]` follows the explanation marker at `i`, holds no
      marker, and ends at a marker or at the end of the answer. */
  ghost predicate ExplanationSpan(response: string, i: int, j: int) {
    0 <= i && i + |ExplanationMarker| <= j <= |response|
    && MarkerFree(response[i + |ExplanationMarker|..j])
    && (j == |response| || MarkerAt(response, j))
  }

  /** The explanation is cut from the text after the first marker `i`: up
      to the next `Explanation:` (at `e` in that text), then up to the first
      `URL:` before that (at `u`). */
  lemma ExplanationField(response: string, i: nat)
    requires FirstAt(response, ExplanationMarker, i)
    ensures var rest := response[i + |ExplanationMarker|..];
            var e := FieldEnd(rest, ExplanationMarker);
            ParseEnrichment(response).explanation == Strip(rest[..e][..FieldEnd(rest[..e], UrlMarker)])
  {
    var rest := response[i + |ExplanationMarker|..];
    FindIsFirst(response, ExplanationMarker, i);
    SplitStep(response, ExplanationMarker, i);
    assert Split(response, ExplanationMarker)[1] == Split(rest, ExplanationMarker)[0];
    SplitHead(rest, ExplanationMarker);
    SplitHead(rest[..FieldEnd(rest, ExplanationMarker)], UrlMarker);
  }

  /** When the marker is present, the explanation is the stripped text that
      runs from just after the first `Explanation:` up to the next marker of
      either kind, or to the end of the answer. */
  lemma ExplanationIsTextUpToNextMarker(response: string, i: nat)
    requires FirstAt(response, ExplanationMarker, i)
    ensures exists j :: ExplanationSpan(response, i, j)
                        && ParseEnrichment(response).explanation == Strip(response[i + |ExplanationMarker|..j])
  {
    ExplanationField(response, i);
    FieldIsSpan(response, i, ParseEnrichment(response).explanation);
  }

  /** The stripped explanation field is the stripped text of a span. */
  lemma FieldIsSpan(response: string, i: nat, x: string)
    requires i + |ExplanationMarker| <= |response|
    requires var rest := response[i + |ExplanationMarker|..];
             var e := FieldEnd(rest, ExplanationMarker);
             x == Strip(rest[..e][..FieldEnd(rest[..e], UrlMarker)])
    ensures exists j :: ExplanationSpan(response, i, j) && x == Strip(response[i + |ExplanationMarker|..j])
  {
    var a := i + |ExplanationMarker|;
    var rest := response[a..];
    var e := FieldEnd(rest, ExplanationMarker);
    var u := FieldEnd(rest[..e], UrlMarker);
    assert rest[..e][..u] == response[a..a + u];
    SpanUpToNextMarker(response, a, e, u);
    assert ExplanationSpan(response, i, a + u);
  }

  /** The end of the explanation field is a marker or the end of the answer,
      and no marker lies before it. */
  lemma SpanUpToNextMarker(response: string, a: nat, e: nat, u: nat)
    requires a <= |response|
    requires e == FieldEnd(response[a..], ExplanationMarker)
    requires u == FieldEnd(response[a..][..e], UrlMarker)
    ensures a + u <= |response|
    ensures MarkerFree(response[a..a + u])
    ensures a + u == |response| || MarkerAt(response, a + u)
  {
    var rest := response[a..];
    var p1 := rest[..e];
    SplitHead(rest, ExplanationMarker);
    SplitHead(p1, UrlMarker);
    AbsentFromPrefix(p1, ExplanationMarker, u);
    assert p1[..u] == response[a..a + u];
    if u < |p1| {
      OccursInPrefix(rest, UrlMarker, e, u);
      OccursInSuffix(response, UrlMarker, a, u);
    } else if e < |rest| {
      OccursInSuffix(response, ExplanationMarker, a, e);
    }
  }

  /** `k` is the last `URL:` of the answer and `link` the stripped text after it. */
  ghost predicate LinkAfterLastUrl(response: string, k: int, link: string) {
    OccursAt(response, UrlMarker, k)
    && AfterLast(response, UrlMarker, k, response[k + |UrlMarker|..])
    && link == Strip(response[k + |UrlMarker|..])
  }

  /** When the explanation marker is present, the link is the stripped text
      after the last `URL:`, or the whole stripped answer when there is no
      `URL:` at all (the fallback link is not used then). */
  lemma LinkIsTextAfterLastUrl(response: string)
    requires Contains(response, ExplanationMarker)
    ensures !Contains(response, UrlMarker) ==> ParseEnrichment(response).link == Strip(response)
    ensures Contains(response, UrlMarker) ==>
              exists k :: LinkAfterLastUrl(response, k, ParseEnrichment(response).link)
  {
    SplitLast(response, UrlMarker);
    if Contains(response, UrlMarker) {
      var k :| AfterLast(response, UrlMarker, k, Last(Split(response, UrlMarker)));
      assert LinkAfterLastUrl(response, k, ParseEnrichment(response).link);
    }
  }

  /** An answer with the explanation marker but no `URL:` gets the whole
      stripped answer, marker included, as its link. */
  lemma MissingUrlGivesWholeAnswerAsLink(x: string)
    requires MarkerFree(x)
    ensures ParseEnrichment(ExplanationMarker + x) == Enrichment(Strip(x), Strip(ExplanationMarker + x))
  {
    var r := ExplanationMarker + x;
    var m := |ExplanationMarker|;
    assert r[..m] == ExplanationMarker;
    assert FirstAt(r, ExplanationMarker, 0);
    SplitStep(r, ExplanationMarker, 0);
    assert r[m..] == x;
    SplitWithout(x, ExplanationMarker);
    SplitWithout(x, UrlMarker);
    forall k | OccursAt(r, UrlMarker, k)
      ensures false
    {
      if k < m {
        OccursAtIndex(r, UrlMarker, k, k);
        assert false;
      } else {
        OccursInSuffix(r, UrlMarker, m, k - m);
      }
    }
    SplitWithout(r, UrlMarker);
  }

  /** What follows the explanation marker in the requested layout: a space
      and the explanation on one line, then `URL:`, a space and the link. */
  function LayoutRest(e: string, u: string): string {
    [' '] + e + ['\n'] + UrlMarker + [' '] + u
  }

  /** An answer in the layout the enrichment prompt asks for. */
  function FormatEnrichment(x: Enrichment): (answer: string)
    ensures StartsWith(answer, ExplanationMarker)
  {
    var answer := ExplanationMarker + LayoutRest(x.explanation, x.link);
    assert answer[..|ExplanationMarker|] == ExplanationMarker;
    answer
  }

  /** The text of a well-formed field: stripped and free of both markers. */
  ghost predicate CleanField(t: string) {
    IsStripped(t) && MarkerFree(t)
  }

  /** Parsing an answer in the requested layout gives back its explanation
      and link, whatever they are, the empty strings included. */
  lemma EnrichmentRoundTrip(x: Enrichment)
    requires CleanField(x.explanation) && CleanField(x.link)
    ensures ParseEnrichment(FormatEnrichment(x)) == x
  {
    var e, u := x.explanation, x.link;
    SplitOnceAtExplanation(e, u);
    ExplanationOfLayout(e, u);
    LinkOfLayout(e, u);
    ParsedFromFields(ExplanationMarker + LayoutRest(e, u), LayoutRest(e, u), x);
  }

  /** The parse reads its two fields off the two splits. */
  lemma ParsedFromFields(r: string, rest: string, x: Enrichment)
    requires Split(r, ExplanationMarker) == [[], rest]
    requires Strip(Split(rest, UrlMarker)[0]) == x.explanation
    requires Strip(Last(Split(r, UrlMarker))) == x.link
    ensures ParseEnrichment(r) == x
  {
    assert TryParseEnrichment(r) == Success(x);
  }

  /** The layout holds exactly one `Explanation:`, at its start. */
  lemma SplitOnceAtExplanation(e: string, u: string)
    requires MarkerFree(e) && MarkerFree(u)
    ensures Split(ExplanationMarker + LayoutRest(e, u), ExplanationMarker) == [[], LayoutRest(e, u)]
  {
    var em := ExplanationMarker;
    var tail := UrlMarker + [' '] + u;
    var rest := LayoutRest(e, u);
    var r := em + rest;
    assert ' ' !in em && '\n' !in em;
    AbsentWhenLonger(UrlMarker, em);
    AbsentAroundChar(UrlMarker, ' ', u, em);
    AbsentAroundChar(e, '\n', tail, em);
    AbsentWhenLonger([], em);
    assert rest == [] + [' '] + (e + ['\n'] + tail);
    AbsentAroundChar([], ' ', e + ['\n'] + tail, em);
    assert r[..|em|] == em && r[|em|..] == rest;
    assert FirstAt(r, em, 0);
    SplitStep(r, em, 0);
    SplitWithout(rest, em);
  }

  /** The explanation field of the layout is the explanation. */
  lemma ExplanationOfLayout(e: string, u: string)
    requires CleanField(e)
    ensures Strip(Split(LayoutRest(e, u), UrlMarker)[0]) == e
  {
    var um := UrlMarker;
    var tail := um + [' '] + u;
    var rest := LayoutRest(e, u);
    var head := [' '] + e;
    assert ' ' !in um && '\n' !in um;
    AbsentWhenLonger([], um);
    assert head == [] + [' '] + e;
    AbsentAroundChar([], ' ', e, um);
    assert tail[..|um|] == um;
    assert rest == head + ['\n'] + tail;
    FirstAfterChar(head, '\n', tail, um);
    SplitStep(rest, um, |head| + 1);
    assert rest[..|head| + 1] == [' '] + e + ['\n'];
    assert AllSpace([' ']) && AllSpace(['\n']);
    StripPadding([' '], e, ['\n']);
  }

  /** The text after the last `URL:` of the layout is the link. */
  lemma LinkOfLayout(e: string, u: string)
    requires MarkerFree(e) && CleanField(u)
    ensures Strip(Last(Split(ExplanationMarker + LayoutRest(e, u), UrlMarker))) == u
  {
    var r := ExplanationMarker + LayoutRest(e, u);
    var q := |ExplanationMarker| + |e| + 2;
    UrlOfLayout(e, u, r, q);
    SplitStep(r, UrlMarker, q);
    LinkTail(u, r[q + |UrlMarker|..]);
  }

  /** The first `URL:` of the layout follows the explanation's line, and only
      a space and the link come after it. */
  lemma UrlOfLayout(e: string, u: string, r: string, q: nat)
    requires MarkerFree(e)
    requires r == ExplanationMarker + LayoutRest(e, u)
    requires q == |ExplanationMarker| + |e| + 2
    ensures FirstAt(r, UrlMarker, q)
    ensures r[q + |UrlMarker|..] == [' '] + u
  {
    var um := UrlMarker;
    var tail := um + [' '] + u;
    var head := ExplanationMarker + [' '] + e;
    assert ' ' !in um && '\n' !in um;
    assert um[0] == 'U' && 'U' !in ExplanationMarker;
    AbsentWithoutHead(ExplanationMarker, um);
    AbsentAroundChar(ExplanationMarker, ' ', e, um);
    assert tail[..|um|] == um;
    assert r == head + ['\n'] + tail;
    FirstAfterChar(head, '\n', tail, um);
    assert r[q..] == tail;
  }

  /** A space and a clean link: one field, stripped to the link. */
  lemma LinkTail(u: string, link: string)
    requires CleanField(u)
    requires link == [' '] + u
    ensures Split(link, UrlMarker) == [link]
    ensures Strip(link) == u
  {
    var um := UrlMarker;
    assert ' ' !in um;
    AbsentWhenLonger([], um);
    assert link == [] + [' '] + u;
    AbsentAroundChar([], ' ', u, um);
    SplitWithout(link, um);
    assert AllSpace([' ']) && AllSpace([]);
    assert link == [' '] + u + [];
    StripPadding([' '], u, []);
  }

  /** An answer whose explanation and link are both empty parses to two
      empty strings, not to the fallback pair. */
  lemma EmptyFieldsAreKept()
    ensures ParseEnrichment("Explanation: \nURL: ") == Enrichment("", "")
  {
    var x := Enrichment("", "");
    assert IsStripped("") && MarkerFree("") by {
      AbsentWhenLonger("", ExplanationMarker);
      AbsentWhenLonger("", UrlMarker);
    }
    EnrichmentRoundTrip(x);
    assert FormatEnrichment(x) == "Explanation: \nURL: ";
  }

  // ---------------------------------------------------------------------------
  // Report assembly
  // ---------------------------------------------------------------------------

  /** Whether both external calls of one enrichment step return: the search
      for the term, then the model on the prompt built from its results. */
  ghost predicate EnrichmentCallsReturn(llm: Llm, search: Search, term: string, documentContext: string) {
    && search(SearchQuery(term)).Success?
    && llm(EnrichmentPrompt(term, ContextCap(documentContext), search(SearchQuery(term)).value)).Success?
  }

  /** One iteration of the enrichment loop: search, prompt, parse. A raised
      search or model call ends the iteration with that error. */
  function ExplainTerm(llm: Llm, search: Search, term: string, documentContext: string): (r: Result<ExplainedTerm, string>)
    ensures r.Success? <==> EnrichmentCallsReturn(llm, search, term, documentContext)
    ensures !search(SearchQuery(term)).Success? ==> r == Failure(search(SearchQuery(term)).error)
    ensures search(SearchQuery(term)).Success?
            && !llm(EnrichmentPrompt(term, ContextCap(documentContext), search(SearchQuery(term)).value)).Success?
            ==> r == Failure(llm(EnrichmentPrompt(term, ContextCap(documentContext), search(SearchQuery(term)).value)).error)
    ensures r.Success? ==>
              var answer := llm(EnrichmentPrompt(term, ContextCap(documentContext), search(SearchQuery(term)).value)).value;
              r.value == ExplainedTerm(term, ParseEnrichment(answer).explanation, ParseEnrichment(answer).link)
  {
    match search(SearchQuery(term))
    case Failure(e) => Failure(e)
    case Success(results) =>
      match llm(EnrichmentPrompt(term, ContextCap(documentContext), results))
      case Failure(e) => Failure(e)
      case Success(answer) =>
        var parsed := ParseEnrichment(answer);
        Success(ExplainedTerm(term, parsed.explanation, parsed.link))
  }

  /** The enrichment loop: it completes exactly when every term's calls
      return, and then holds one entry per term, in term order, each computed
      from its own term alone. */
  function ExplainTerms(llm: Llm, search: Search, terms: seq<string>, documentContext: string): (r: Result<seq<ExplainedTerm>, string>)
    ensures r.Success? <==> forall i :: 0 <= i < |terms| ==> ExplainTerm(llm, search, terms[i], documentContext).Success?
    ensures r.Success? ==>
              && |r.value| == |terms|
              && forall i :: 0 <= i < |terms| ==> Success(r.value[i]) == ExplainTerm(llm, search, terms[i], documentContext)
  {
    if terms == [] then Success([])
    else
      match ExplainTerm(llm, search, terms[0], documentContext)
      case Failure(e) => Failure(e)
      case Success(first) =>
        match ExplainTerms(llm, search, terms[1..], documentContext)
        case Failure(e) => Failure(e)
        case Success(rest) =>
          assert forall i :: 1 <= i < |terms| ==> terms[i] == terms[1..][i - 1];
          Success([first] + rest)
  }

  /** A failed loop reports the error of the first term whose calls raise;
      every earlier term was explained. */
  lemma {:induction false} FirstFailureStopsLoop(llm: Llm, search: Search, terms: seq<string>, documentContext: string)
    requires ExplainTerms(llm, search, terms, documentContext).Failure?
    ensures exists i :: 0 <= i < |terms|
              && ExplainTerm(llm, search, terms[i], documentContext) == Failure(ExplainTerms(llm, search, terms, documentContext).error)
              && forall j :: 0 <= j < i ==> ExplainTerm(llm, search, terms[j], documentContext).Success?
  {
    var e := ExplainTerms(llm, search, terms, documentContext).error;
    if ExplainTerm(llm, search, terms[0], documentContext).Failure? {
      assert ExplainTerm(llm, search, terms[0], documentContext) == Failure(e);
    } else {
      var tail := terms[1..];
      assert ExplainTerms(llm, search, tail, documentContext) == Failure(e);
      FirstFailureStopsLoop(llm, search, tail, documentContext);
      var k :| 0 <= k < |tail|
               && ExplainTerm(llm, search, tail[k], documentContext) == Failure(e)
               && forall j :: 0 <= j < k ==> ExplainTerm(llm, search, tail[j], documentContext).Success?;
      assert terms[k + 1] == tail[k];
      assert forall j :: 1 <= j < k + 1 ==> terms[j] == tail[j - 1];
    }
  }

  /** Text past the first 2000 characters of the document never reaches an
      enrichment prompt, so it cannot change any explained term. */
  lemma ExplanationIgnoresTextBeyondLimit(llm: Llm, search: Search, term: string, d1: string, d2: string)
    requires ContextLimit <= |d1| && ContextLimit <= |d2|
    requires d1[..ContextLimit] == d2[..ContextLimit]
    ensures ExplainTerm(llm, search, term, d1) == ExplainTerm(llm, search, term, d2)
  {
  }

  /** The final report built by generate_report_node once the loop completes. */
  function BuildReport(llm: Llm, search: Search, chunks: seq<string>, summary: string, terms: seq<string>): (r: Result<DemystifyReport, string>)
    ensures r.Success? <==> ExplainTerms(llm, search, terms, DocumentContext(chunks)).Success?
    ensures r.Success? ==>
              && r.value.summary == summary
              && r.value.overallAdvice == OverallAdvice
              && |r.value.keyTerms| == |terms|
              && forall i :: 0 <= i < |terms| ==> r.value.keyTerms[i].term == terms[i]
  {
    match ExplainTerms(llm, search, terms, DocumentContext(chunks))
    case Failure(e) => Failure(e)
    case Success(explained) => Success(DemystifyReport(summary, explained, OverallAdvice))
  }

  // ---------------------------------------------------------------------------
  // The analysis graph
  // ---------------------------------------------------------------------------

  datatype Node = Summarize | IdentifyTerms | GenerateReport

  datatype Vertex = Start | End | Step(node: Node)

  /** The edges added to the graph builder, START to END. */
  const GraphEdges: seq<(Vertex, Vertex)> := [
    (Start, Step(Summarize)),
    (Step(Summarize), Step(IdentifyTerms)),
    (Step(IdentifyTerms), Step(GenerateReport)),
    (Step(GenerateReport), End)
  ]

  /** The target of the first edge leaving `v`, if any. */
  function Successor(edges: seq<(Vertex, Vertex)>, v: Vertex): (w: Option<Vertex>)
    ensures w.Some? ==> (v, w.value) in edges
    ensures w.None? ==> forall e :: e in edges ==> e.0 != v
  {
    if edges == [] then None
    else if edges[0].0 == v then Some(edges[0].1)
    else Successor(edges[1..], v)
  }

  /** The nodes run when the graph is followed from `v` until END, at most
      `fuel` steps; None if END is not reached. */
  function Schedule(edges: seq<(Vertex, Vertex)>, v: Vertex, fuel: nat): Option<seq<Node>>
    decreases fuel
  {
    if v == End then Some([])
    else if fuel == 0 || Successor(edges, v).None? then None
    else
      var rest := Schedule(edges, Successor(edges, v).value, fuel - 1);
      if rest.None? then None
      else Some((if v.Step? then [v.node] else []) + rest.value)
  }

  /** Following one edge from a node prepends that node to the schedule. */
  lemma ScheduleStep(edges: seq<(Vertex, Vertex)>, n: Node, w: Vertex, fuel: nat, rest: seq<Node>)
    requires Successor(edges, Step(n)) == Some(w)
    requires Schedule(edges, w, fuel) == Some(rest)
    ensures Schedule(edges, Step(n), fuel + 1) == Some([n] + rest)
  {
  }

  /** START runs nothing itself: the schedule is that of its successor. */
  lemma ScheduleFromStart(edges: seq<(Vertex, Vertex)>, w: Vertex, fuel: nat, rest: seq<Node>)
    requires Successor(edges, Start) == Some(w)
    requires Schedule(edges, w, fuel) == Some(rest)
    ensures Schedule(edges, Start, fuel + 1) == Some(rest)
  {
    assert [] + rest == rest;
  }

  /** Where each vertex of the compiled graph leads. */
  lemma GraphSuccessors()
    ensures Successor(GraphEdges, Start) == Some(Step(Summarize))
    ensures Successor(GraphEdges, Step(Summarize)) == Some(Step(IdentifyTerms))
    ensures Successor(GraphEdges, Step(IdentifyTerms)) == Some(Step(GenerateReport))
    ensures Successor(GraphEdges, Step(GenerateReport)) == Some(End)
  {
    var e := GraphEdges;
    assert e[0] == (Start, Step(Summarize));
    assert e[1..][0] == (Step(Summarize), Step(IdentifyTerms));
    assert e[1..][1..][0] == (Step(IdentifyTerms), Step(GenerateReport));
    assert e[1..][1..][1..][0] == (Step(GenerateReport), End);
  }

  /** A chain START -> summarize -> identify_terms -> generate_report -> END
      schedules the three nodes in that order. */
  lemma ScheduleOfChain(edges: seq<(Vertex, Vertex)>)
    requires Successor(edges, Start) == Some(Step(Summarize))
    requires Successor(edges, Step(Summarize)) == Some(Step(IdentifyTerms))
    requires Successor(edges, Step(IdentifyTerms)) == Some(Step(GenerateReport))
    requires Successor(edges, Step(GenerateReport)) == Some(End)
    ensures Schedule(edges, Start, 4) == Some([Summarize, IdentifyTerms, GenerateReport])
  {
    ScheduleStep(edges, GenerateReport, End, 0, []);
    assert [GenerateReport] + [] == [GenerateReport];
    ScheduleStep(edges, IdentifyTerms, Step(GenerateReport), 1, [GenerateReport]);
    assert [IdentifyTerms] + [GenerateReport] == [IdentifyTerms, GenerateReport];
    ScheduleStep(edges, Summarize, Step(IdentifyTerms), 2, [IdentifyTerms, GenerateReport]);
    assert [Summarize] + [IdentifyTerms, GenerateReport] == [Summarize, IdentifyTerms, GenerateReport];
    ScheduleFromStart(edges, Step(Summarize), 3, [Summarize, IdentifyTerms, GenerateReport]);
  }

  /** The compiled graph runs summarize, identify_terms and generate_report,
      in that order, each exactly once. */
  lemma StagesRunInFixedOrder()
    ensures Schedule(GraphEdges, Start, |GraphEdges|) == Some([Summarize, IdentifyTerms, GenerateReport])
  {
    GraphSuccessors();
    ScheduleOfChain(GraphEdges);
  }

  /** The graph state; a key no node has written yet is None. */
  datatype DemystifyState = DemystifyState(
    documentChunks: seq<string>,
    summary: Option<string>,
    identifiedTerms: Option<seq<string>>,
    finalReport: Option<DemystifyReport>)

  const SummaryKey := "summary"
  const IdentifiedTermsKey := "identified_terms"

  /** One node's update of the state. A node writes its own key and nothing
      else; a raised model or search call fails the node with that error, and
      `Failure(key)` is the KeyError a node raises when it reads a key no
      earlier node wrote. generate_report reads the terms before its loop and
      the summary after it. */
  function RunNode(node: Node, llm: Llm, search: Search, st: DemystifyState): (r: Result<DemystifyState, string>)
    ensures r.Success? && node == Summarize ==> r.value.summary.Some? && r.value == st.(summary := r.value.summary)
    ensures r.Success? && node == IdentifyTerms ==>
              r.value.identifiedTerms.Some? && r.value == st.(identifiedTerms := r.value.identifiedTerms)
    ensures r.Success? && node == GenerateReport ==>
              r.value.finalReport.Some? && r.value == st.(finalReport := r.value.finalReport)
    ensures node == GenerateReport && st.identifiedTerms.None? ==> r == Failure(IdentifiedTermsKey)
    ensures node == GenerateReport && st.summary.None? ==> r.Failure?
  {
    var context := DocumentContext(st.documentChunks);
    match node
    case Summarize =>
      (match llm(SummarizePrompt(context))
       case Failure(e) => Failure(e)
       case Success(summary) => Success(st.(summary := Some(summary))))
    case IdentifyTerms =>
      (match llm(IdentifyTermsPrompt(context))
       case Failure(e) => Failure(e)
       case Success(answer) => Success(st.(identifiedTerms := Some(ParseTerms(answer)))))
    case GenerateReport =>
      if st.identifiedTerms.None? then Failure(IdentifiedTermsKey)
      else
        match BuildReport(llm, search, st.documentChunks, if st.summary.Some? then st.summary.value else "", st.identifiedTerms.value)
        case Failure(e) => Failure(e)
        case Success(report) =>
          if st.summary.None? then Failure(SummaryKey)
          else Success(st.(finalReport := Some(report)))
  }

  function RunNodes(nodes: seq<Node>, llm: Llm, search: Search, st: DemystifyState): Result<DemystifyState, string>
    decreases |nodes|
  {
    if nodes == [] then Success(st)
    else
      match RunNode(nodes[0], llm, search, st)
      case Failure(key) => Failure(key)
      case Success(next) => RunNodes(nodes[1..], llm, search, next)
  }

  /** A completed run keeps the chunks, and holds a report when
      generate_report was among the nodes or a report was there already. */
  lemma {:induction false} RunNodesWritesReport(nodes: seq<Node>, llm: Llm, search: Search, st: DemystifyState)
    requires RunNodes(nodes, llm, search, st).Success?
    ensures RunNodes(nodes, llm, search, st).value.documentChunks == st.documentChunks
    ensures GenerateReport in nodes || st.finalReport.Some? ==> RunNodes(nodes, llm, search, st).value.finalReport.Some?
  {
    if nodes != [] {
      var next := RunNode(nodes[0], llm, search, st).value;
      RunNodesWritesReport(nodes[1..], llm, search, next);
      assert GenerateReport in nodes ==> nodes[0] == GenerateReport || GenerateReport in nodes[1..];
    }
  }

  /** `demystifier_agent_graph.invoke({"document_chunks": chunks})`. A run
      that reaches END has kept the chunks and written the report. */
  function RunGraph(llm: Llm, search: Search, chunks: seq<string>): (r: Result<DemystifyState, string>)
    ensures r.Success? ==> r.value.documentChunks == chunks && r.value.finalReport.Some?
  {
    StagesRunInFixedOrder();
    match Schedule(GraphEdges, Start, |GraphEdges|)
    case None => Failure("END")
    case Some(nodes) =>
      var s0 := DemystifyState(chunks, None, None, None);
      var r := RunNodes(nodes, llm, search, s0);
      if r.Failure? then r
      else
        assert nodes[2] == GenerateReport;
        RunNodesWritesReport(nodes, llm, search, s0);
        r
  }

  /** `process_document_for_demystification`, given the chunks the loader and
      splitter produced: the vector store is built first, then the graph
      runs. A completed analysis always carries a report, and its chat chain
      retrieves the three nearest chunks of this document. */
  function ProcessDocument(llm: Llm, search: Search, index: IndexBuild, chunks: seq<string>): (r: Result<Analysis, string>)
    ensures !index(chunks).Success? ==> r == Failure(index(chunks).error)
    ensures r.Success? ==> r.value.report.Some? && r.value.ragChain == RagChain(chunks, RetrieverTopK)
  {
    match index(chunks)
    case Failure(e) => Failure(e)
    case Success(_) =>
      match RunGraph(llm, search, chunks)
      case Failure(key) => Failure(key)
      case Success(final) => Success(Analysis(final.finalReport, RagChain(chunks, RetrieverTopK)))
  }

  /** Whether every external call the graph makes on this document returns:
      the summary, the term list, and the search and model call of each
      identified term. */
  ghost predicate GraphCallsReturn(llm: Llm, search: Search, chunks: seq<string>) {
    var context := DocumentContext(chunks);
    && llm(SummarizePrompt(context)).Success?
    && llm(IdentifyTermsPrompt(context)).Success?
    && var terms := ParseTerms(llm(IdentifyTermsPrompt(context)).value);
       forall i :: 0 <= i < |terms| ==> EnrichmentCallsReturn(llm, search, terms[i], context)
  }

  /** The analysis completes exactly when the vector store is built and every
      call the graph makes returns: no KeyError can arise on the compiled
      graph, and any raised call aborts it. */
  lemma ProcessDocumentSucceedsIff(llm: Llm, search: Search, index: IndexBuild, chunks: seq<string>)
    ensures ProcessDocument(llm, search, index, chunks).Success?
        <==> index(chunks).Success? && GraphCallsReturn(llm, search, chunks)
  {
    var s0 := DemystifyState(chunks, None, None, None);
    StagesRunInFixedOrder();
    assert RunGraph(llm, search, chunks) == RunNodes([Summarize, IdentifyTerms, GenerateReport], llm, search, s0);
    RunStagesIff(llm, search, s0);
  }

  /** The three scheduled nodes run to the end exactly when every call returns. */
  lemma RunStagesIff(llm: Llm, search: Search, s0: DemystifyState)
    ensures RunNodes([Summarize, IdentifyTerms, GenerateReport], llm, search, s0).Success?
        <==> GraphCallsReturn(llm, search, s0.documentChunks)
  {
    var context := DocumentContext(s0.documentChunks);
    var nodes := [Summarize, IdentifyTerms, GenerateReport];
    assert nodes[1..] == [IdentifyTerms, GenerateReport];
    assert nodes[1..][1..] == [GenerateReport];
    var a := llm(SummarizePrompt(context));
    var b := llm(IdentifyTermsPrompt(context));
    if a.Success? && b.Success? {
      var s2 := s0.(summary := Some(a.value), identifiedTerms := Some(ParseTerms(b.value)));
      assert RunNodes(nodes, llm, search, s0) == RunNodes([GenerateReport], llm, search, s2);
    }
  }

  /** The summary is the first call of the graph: when it raises, nothing
      else runs and the analysis fails with its error. */
  lemma SummaryFailureStopsAnalysis(llm: Llm, search: Search, index: IndexBuild, chunks: seq<string>)
    requires index(chunks).Success?
    requires llm(SummarizePrompt(DocumentContext(chunks))).Failure?
    ensures ProcessDocument(llm, search, index, chunks) == Failure(llm(SummarizePrompt(DocumentContext(chunks))).error)
  {
    StagesRunInFixedOrder();
  }

  /** The term list is asked for second: when that call raises after the
      summary returned, the analysis fails with its error. */
  lemma TermListFailureStopsAnalysis(llm: Llm, search: Search, index: IndexBuild, chunks: seq<string>)
    requires index(chunks).Success?
    requires llm(SummarizePrompt(DocumentContext(chunks))).Success?
    requires llm(IdentifyTermsPrompt(DocumentContext(chunks))).Failure?
    ensures ProcessDocument(llm, search, index, chunks) == Failure(llm(IdentifyTermsPrompt(DocumentContext(chunks))).error)
  {
    var s0 := DemystifyState(chunks, None, None, None);
    var s1 := s0.(summary := Some(llm(SummarizePrompt(DocumentContext(chunks))).value));
    StagesRunInFixedOrder();
    assert RunNode(Summarize, llm, search, s0) == Success(s1);
    assert [Summarize, IdentifyTerms, GenerateReport][1..] == [IdentifyTerms, GenerateReport];
  }

  /** End to end, when every call returns: the report's summary is the
      summarize stage's output on the whole document, its key terms are the
      identified terms one for one and in order, each enriched independently,
      and its advice is the fixed disclaimer. The chat chain retrieves the
      three nearest chunks. */
  lemma ProcessDocumentReport(llm: Llm, search: Search, index: IndexBuild, chunks: seq<string>)
    requires index(chunks).Success? && GraphCallsReturn(llm, search, chunks)
    ensures ProcessDocument(llm, search, index, chunks).Success?
    ensures var analysis := ProcessDocument(llm, search, index, chunks).value;
            var context := DocumentContext(chunks);
            var terms := ParseTerms(llm(IdentifyTermsPrompt(context)).value);
            && analysis.ragChain == RagChain(chunks, 3)
            && analysis.report.Some?
            && analysis.report.value.summary == llm(SummarizePrompt(context)).value
            && analysis.report.value.overallAdvice == OverallAdvice
            && |analysis.report.value.keyTerms| == |terms|
            && forall i :: 0 <= i < |terms| ==>
                 Success(analysis.report.value.keyTerms[i]) == ExplainTerm(llm, search, terms[i], context)
                 && analysis.report.value.keyTerms[i].term == terms[i]
  {
    var context := DocumentContext(chunks);
    var s0 := DemystifyState(chunks, None, None, None);
    var s1 := s0.(summary := Some(llm(SummarizePrompt(context)).value));
    var s2 := s1.(identifiedTerms := Some(ParseTerms(llm(IdentifyTermsPrompt(context)).value)));
    var report := BuildReport(llm, search, chunks, s2.summary.value, s2.identifiedTerms.value);
    assert report.Success?;
    var s3 := s2.(finalReport := Some(report.value));
    StagesRunInFixedOrder();
    RunStages(llm, search, s0, s1, s2, s3);
    assert RunGraph(llm, search, chunks) == Success(s3);
    ReportTerms(llm, search, chunks, s2.summary.value, s2.identifiedTerms.value);
  }

  /** Running the three scheduled nodes from a state leaves the summary, the
      terms and the report each written once. */
  lemma RunStages(llm: Llm, search: Search, s0: DemystifyState, s1: DemystifyState, s2: DemystifyState, s3: DemystifyState)
    requires llm(SummarizePrompt(DocumentContext(s0.documentChunks))).Success?
    requires llm(IdentifyTermsPrompt(DocumentContext(s0.documentChunks))).Success?
    requires s1 == s0.(summary := Some(llm(SummarizePrompt(DocumentContext(s0.documentChunks))).value))
    requires s2 == s1.(identifiedTerms := Some(ParseTerms(llm(IdentifyTermsPrompt(DocumentContext(s0.documentChunks))).value)))
    requires BuildReport(llm, search, s0.documentChunks, s2.summary.value, s2.identifiedTerms.value).Success?
    requires s3 == s2.(finalReport := Some(BuildReport(llm, search, s0.documentChunks, s2.summary.value, s2.identifiedTerms.value).value))
    ensures RunNodes([Summarize, IdentifyTerms, GenerateReport], llm, search, s0) == Success(s3)
  {
    assert RunNode(Summarize, llm, search, s0) == Success(s1);
    assert RunNode(IdentifyTerms, llm, search, s1) == Success(s2);
    assert RunNode(GenerateReport, llm, search, s2) == Success(s3);
    assert RunNodes([GenerateReport], llm, search, s2) == Success(s3);
    assert [Summarize, IdentifyTerms, GenerateReport][1..] == [IdentifyTerms, GenerateReport];
    assert [IdentifyTerms, GenerateReport][1..] == [GenerateReport];
  }

  /** Each key term of a built report is the enrichment of the matching term. */
  lemma ReportTerms(llm: Llm, search: Search, chunks: seq<string>, summary: string, terms: seq<string>)
    ensures var report := BuildReport(llm, search, chunks, summary, terms);
            report.Success? ==>
              forall i :: 0 <= i < |terms| ==>
                Success(report.value.keyTerms[i]) == ExplainTerm(llm, search, terms[i], DocumentContext(chunks))
  {
  }
}

=== FILE: pdf_text.dfy ===
/** The PDF helper's string rewriting: `markdown_to_html_for_fpdf` turns
    `**bold**` into `<b>bold</b>` and newlines into `<br>`, and
    `generate_formatted_pdf` then round-trips the HTML through latin-1 with
    the 'replace' error handler before handing it to FPDF. */
module PdfText {
  import opened Wrappers
  import opened Text

  const BoldMarker := "**"
  const BoldOpen := "<b>"
  const BoldClose := "</b>"
  const LineBreak := "<br>"

  /** The character latin-1's 'replace' handler writes for an unencodable one. */
  const Replacement := '?'

  // ---------------------------------------------------------------------------
  // re.sub(r'\*\*(.*?)\*\*', r'<b>\1</b>', md_text)
  // ---------------------------------------------------------------------------

  /** Where the lazy group `(.*?)` ends in `t` (the text right after an
      opening `**`): the first `**`, provided no newline comes before it,
      since `.` does not match a newline. */
  function Closing(t: string): (k: Option<nat>)
    ensures k.Some? ==> k.value + 2 <= |t|
    decreases |t|
  {
    if |t| >= 2 && t[0] == '*' && t[1] == '*' then Some(0)
    else if t == [] || t[0] == '\n' then None
    else
      match Closing(t[1..])
      case None => None
      case Some(k) => Some(k + 1)
  }

  /** A closing `**` at `k` with only non-newline characters before it. */
  ghost predicate ClosesAt(t: string, k: int) {
    OccursAt(t, BoldMarker, k) && '\n' !in t[..k]
  }

  /** The group ends at the first `**` that the same line reaches, and there
      is none exactly when no `**` follows on the line. */
  lemma {:induction false} ClosingSpec(t: string)
    ensures Closing(t).None? <==> forall k :: !ClosesAt(t, k)
    ensures Closing(t).Some? ==>
              ClosesAt(t, Closing(t).value)
              && forall j :: 0 <= j < Closing(t).value ==> !OccursAt(t, BoldMarker, j)
    decreases |t|
  {
    if |t| >= 2 && t[0] == '*' && t[1] == '*' {
      assert t[0..2] == BoldMarker;
      assert ClosesAt(t, 0);
    } else if t == [] {
    } else if t[0] == '\n' {
      forall k
        ensures !ClosesAt(t, k)
      {
        if k == 0 && |t| >= 2 {
          assert t[0..2][0] == '\n';
        } else if 0 < k <= |t| {
          assert t[..k][0] == '\n';
        }
      }
    } else {
      ClosingSpec(t[1..]);
      forall k | 1 <= k
        ensures ClosesAt(t, k) <==> ClosesAt(t[1..], k - 1)
      {
        ShiftedMarker(t, k);
      }
      assert !OccursAt(t, BoldMarker, 0) by {
        if |t| >= 2 {
          assert t[0..2] == [t[0], t[1]];
        }
      }
      assert !ClosesAt(t, 0);
      match Closing(t[1..])
      case None =>
        forall k
          ensures !ClosesAt(t, k)
        {
          if k >= 1 {
            ShiftedMarker(t, k);
          }
        }
      case Some(k) =>
        ShiftedMarker(t, k + 1);
        forall j | 1 <= j < k + 1
          ensures !OccursAt(t, BoldMarker, j)
        {
          OccursShift(t, BoldMarker, j);
        }
    }
  }

  /** Occurrences in `t` at `k >= 1` are the occurrences in `t[1..]` at `k - 1`. */
  lemma OccursShift(t: string, pat: string, k: int)
    requires 1 <= k && |t| >= 1
    ensures OccursAt(t, pat, k) <==> OccursAt(t[1..], pat, k - 1)
  {
    if k + |pat| <= |t| {
      var a, b := t[k..k + |pat|], t[1..][k - 1..k - 1 + |pat|];
      forall m | 0 <= m < |pat|
        ensures a[m] == b[m]
      {
        assert t[1..][k - 1 + m] == t[k + m];
      }
      assert a == b;
    }
  }

  /** The same shift for a closing marker, with the newline test. */
  lemma ShiftedMarker(t: string, k: int)
    requires 1 <= k && |t| >= 1 && t[0] != '\n'
    ensures ClosesAt(t, k) <==> ClosesAt(t[1..], k - 1)
  {
    OccursShift(t, BoldMarker, k);
    if k <= |t| {
      assert t[..k] == [t[0]] + t[1..][..k - 1];
    }
  }

  /** The substitution: scan left to right; at an opening `**` whose group
      closes on the same line, write the group in bold and go on after the
      closing `**`; otherwise copy one character. */
  function BoldSub(s: string): string
    decreases |s|
  {
    if |s| >= 2 && s[0] == '*' && s[1] == '*' && Closing(s[2..]).Some? then
      var k := Closing(s[2..]).value;
      BoldOpen + s[2..2 + k] + BoldClose + BoldSub(s[k + 4..])
    else if s == [] then []
    else [s[0]] + BoldSub(s[1..])
  }

  /** Text with no `**` in it passes through the substitution unchanged,
      single asterisks included. */
  lemma {:induction false} PlainTextUnchanged(s: string)
    requires !Contains(s, BoldMarker)
    ensures BoldSub(s) == s
    decreases |s|
  {
    if s != [] {
      if |s| >= 2 {
        assert s[0..2] == [s[0], s[1]];
        assert !OccursAt(s, BoldMarker, 0);
      }
      assert !Contains(s[1..], BoldMarker) by {
        forall k | 0 <= k
          ensures !OccursAt(s[1..], BoldMarker, k)
        {
          OccursShift(s, BoldMarker, k + 1);
        }
      }
      PlainTextUnchanged(s[1..]);
    }
  }

  /** A bullet line keeps its single asterisk. */
  lemma BulletLineUnchanged()
    ensures BoldSub("* item") == "* item"
  {
    var s := "* item";
    assert !Contains(s, BoldMarker) by {
      forall k
        ensures !OccursAt(s, BoldMarker, k)
      {
        if 0 <= k && k + 2 <= |s| {
          assert s[k..k + 2][1] == s[k + 1];
          assert s[k + 1] != '*';
        }
      }
    }
    PlainTextUnchanged(s);
  }

  /** Text without asterisks is copied as it is, whatever follows. */
  lemma {:induction false} PlainPrefix(t: string, rest: string)
    requires '*' !in t
    ensures BoldSub(t + rest) == t + BoldSub(rest)
    decreases |t|
  {
    if t == [] {
      assert t + rest == rest;
    } else {
      assert t[0] != '*';
      assert (t + rest)[0] == t[0] && (t + rest)[1..] == t[1..] + rest;
      PlainPrefix(t[1..], rest);
      assert t == [t[0]] + t[1..];
    }
  }

  /** `**t**` with `t` free of asterisks and newlines becomes `<b>t</b>`;
      the rest of the text is rewritten on its own. */
  lemma BoldSpan(t: string, rest: string)
    requires '*' !in t && '\n' !in t
    ensures BoldSub(BoldMarker + t + BoldMarker + rest) == BoldOpen + t + BoldClose + BoldSub(rest)
  {
    var s := BoldMarker + t + BoldMarker + rest;
    var inner := t + BoldMarker + rest;
    assert s[2..] == inner;
    ClosingAfterPlain(t, BoldMarker + rest);
    assert inner == t + (BoldMarker + rest);
    assert s[2..2 + |t|] == t;
    assert s[|t| + 4..] == rest;
  }

  /** Plain text followed by `**` closes right after the plain text. */
  lemma {:induction false} ClosingAfterPlain(t: string, tail: string)
    requires '*' !in t && '\n' !in t
    requires |tail| >= 2 && tail[0] == '*' && tail[1] == '*'
    ensures Closing(t + tail) == Some(|t|)
    decreases |t|
  {
    if t != [] {
      assert (t + tail)[1..] == t[1..] + tail;
      assert t[0] != '*' && t[0] != '\n';
      ClosingAfterPlain(t[1..], tail);
    }
  }

  /** At an opening `**` whose group closes on the same line, first at `k`,
      the group is set in bold and the scan goes on after the closing `**`. */
  lemma BoldSubStep(t: string, k: nat)
    requires ClosesAt(t, k)
    requires forall j :: 0 <= j < k ==> !OccursAt(t, BoldMarker, j)
    ensures BoldSub(BoldMarker + t) == BoldOpen + t[..k] + BoldClose + BoldSub(t[k + 2..])
  {
    ClosingSpec(t);
    var v := Closing(t).value;
    assert OccursAt(t, BoldMarker, v) && OccursAt(t, BoldMarker, k);
    assert v == k;
    var s := BoldMarker + t;
    assert s[2..] == t;
    assert s[2..2 + k] == t[..k];
    assert s[k + 4..] == t[k + 2..];
  }

  /** A `**` with no closing `**` after it on its line stays as literal
      asterisks, and the scan goes on right after it. */
  lemma UnclosedMarkerStaysLiteral(t: string)
    requires Closing(t).None?
    ensures BoldSub(BoldMarker + t) == BoldMarker + BoldSub(t)
  {
    var s := BoldMarker + t;
    var u := ['*'] + t;
    assert s[2..] == t && s[1..] == u;
    assert u[1..] == t;
    if |t| >= 1 && t[0] == '*' {
      assert Closing(t[1..]).None?;
      assert u[2..] == t[1..];
    }
    assert BoldSub(u) == ['*'] + BoldSub(t);
    assert BoldMarker + BoldSub(t) == ['*'] + (['*'] + BoldSub(t));
  }

  /** Without asterisks there is no closing marker. */
  lemma {:induction false} NoClosingWithoutAsterisk(t: string)
    requires '*' !in t
    ensures Closing(t).None?
    decreases |t|
  {
    if t != [] {
      assert t[0] != '*';
      NoClosingWithoutAsterisk(t[1..]);
    }
  }

  /** A newline ends the search for the closing marker. */
  lemma {:induction false} ClosingStopsAtNewline(t: string, b: string)
    ensures Closing(t + "\n" + b) == Closing(t)
    decreases |t|
  {
    var s := t + "\n" + b;
    if t == [] {
      assert s == "\n" + b;
    } else if |t| >= 2 && t[0] == '*' && t[1] == '*' {
    } else {
      assert s[0] == t[0];
      assert |t| == 1 ==> s[1] == '\n';
      assert s[1..] == t[1..] + "\n" + b;
      ClosingStopsAtNewline(t[1..], b);
    }
  }

  /** Bold markers never pair across a line break: each line is rewritten
      on its own. */
  lemma {:induction false} BoldStaysOnItsLine(a: string, b: string)
    ensures BoldSub(a + "\n" + b) == BoldSub(a) + "\n" + BoldSub(b)
    decreases |a|
  {
    var nl := "\n";
    var s := a + nl + b;
    if a == [] {
      assert s == nl + b && s[1..] == b;
      BoldSubCopy(s);
    } else if |a| >= 2 && a[0] == '*' && a[1] == '*' && Closing(a[2..]).Some? {
      var k := Closing(a[2..]).value;
      assert s[2..] == a[2..] + nl + b;
      ClosingStopsAtNewline(a[2..], b);
      assert s[2..2 + k] == a[2..2 + k];
      assert s[k + 4..] == a[k + 4..] + nl + b;
      BoldSubBold(s, k);
      BoldSubBold(a, k);
      BoldStaysOnItsLine(a[k + 4..], b);
      Regroup(BoldOpen + a[2..2 + k] + BoldClose, BoldSub(a[k + 4..]), nl, BoldSub(b));
    } else {
      if |a| >= 2 {
        assert s[2..] == a[2..] + nl + b;
        ClosingStopsAtNewline(a[2..], b);
      }
      assert s[0] == a[0];
      assert |a| == 1 ==> s[1] == '\n';
      assert s[1..] == a[1..] + nl + b;
      BoldSubCopy(s);
      BoldSubCopy(a);
      BoldStaysOnItsLine(a[1..], b);
      Regroup([a[0]], BoldSub(a[1..]), nl, BoldSub(b));
    }
  }

  lemma Regroup(h: string, x: string, y: string, z: string)
    ensures h + (x + y + z) == h + x + y + z
  {
  }

  /** One step of the substitution at an opening `**` that closes. */
  lemma BoldSubBold(s: string, k: nat)
    requires |s| >= 2 && s[0] == '*' && s[1] == '*' && Closing(s[2..]) == Some(k)
    ensures BoldSub(s) == BoldOpen + s[2..2 + k] + BoldClose + BoldSub(s[k + 4..])
  {
  }

  /** One step of the substitution anywhere else: the character is copied. */
  lemma BoldSubCopy(s: string)
    requires s != []
    requires !(|s| >= 2 && s[0] == '*' && s[1] == '*' && Closing(s[2..]).Some?)
    ensures BoldSub(s) == [s[0]] + BoldSub(s[1..])
  {
  }

  // ---------------------------------------------------------------------------
  // text.replace('\n', '<br>')
  // ---------------------------------------------------------------------------

  function BreakLines(s: string): string
    decreases |s|
  {
    if s == [] then []
    else (if s[0] == '\n' then LineBreak else [s[0]]) + BreakLines(s[1..])
  }

  /** No newline survives the replacement. */
  lemma {:induction false} BreakLinesRemovesNewlines(s: string)
    ensures '\n' !in BreakLines(s)
    decreases |s|
  {
    if s != [] {
      BreakLinesRemovesNewlines(s[1..]);
      assert '\n' !in LineBreak;
    }
  }

  /** The replacement works character by character, so it distributes over
      concatenation. */
  lemma {:induction false} BreakLinesConcat(a: string, b: string)
    ensures BreakLines(a + b) == BreakLines(a) + BreakLines(b)
    decreases |a|
  {
    if a == [] {
      assert a + b == b;
    } else {
      var head := if a[0] == '\n' then LineBreak else [a[0]];
      assert (a + b)[0] == a[0] && (a + b)[1..] == a[1..] + b;
      assert BreakLines(a + b) == head + BreakLines(a[1..] + b);
      BreakLinesConcat(a[1..], b);
      assert BreakLines(a) == head + BreakLines(a[1..]);
    }
  }

  /** Every newline grows by the three extra characters of `<br>`; nothing
      else changes length. */
  lemma {:induction false} BreakLinesLength(s: string)
    ensures |BreakLines(s)| == |s| + 3 * multiset(s)['\n']
    decreases |s|
  {
    if s != [] {
      assert s == [s[0]] + s[1..];
      assert multiset(s) == multiset([s[0]]) + multiset(s[1..]);
      BreakLinesLength(s[1..]);
    }
  }

  /** Text without newlines is left as it is. */
  lemma {:induction false} NoNewlineUnchanged(s: string)
    requires '\n' !in s
    ensures BreakLines(s) == s
    decreases |s|
  {
    if s != [] {
      assert s[0] != '\n';
      NoNewlineUnchanged(s[1..]);
    }
  }

  /** `str.replace` is `"<br>".join(text.split("\n"))`: the fields between the
      newlines, unchanged, glued with `<br>`. */
  lemma {:induction false} BreakLinesIsJoinOfSplit(s: string)
    ensures BreakLines(s) == Join(Split(s, "\n"), LineBreak)
    decreases |s|
  {
    FindChar(s, '\n');
    if '\n' !in s {
      SplitCharAbsent(s, '\n');
      NoNewlineUnchanged(s);
    } else {
      var i := Find(s, "\n").value;
      var rest := s[i + 1..];
      FindSpec(s, "\n");
      SplitStep(s, "\n", i);
      assert s == s[..i] + "\n" + rest;
      BreakLinesIsJoinOfSplit(rest);
      assert '\n' !in s[..i];
      NoNewlineUnchanged(s[..i]);
      BreakLinesConcat(s[..i] + "\n", rest);
      BreakLinesConcat(s[..i], "\n");
      assert BreakLines("\n") == LineBreak;
      SplitIsNeverEmpty(rest, "\n");
      JoinCons(s[..i], Split(rest, "\n"), LineBreak);
    }
  }

  /** `split` always gives at least one field. */
  lemma SplitIsNeverEmpty(s: string, sep: string)
    requires |sep| > 0
    ensures |Split(s, sep)| >= 1
  {
    SplitJoin(s, sep);
  }

  /** Joining a field in front of a non-empty list puts one separator between. */
  lemma JoinCons(x: string, xs: seq<string>, sep: string)
    requires |xs| >= 1
    ensures Join([x] + xs, sep) == x + sep + Join(xs, sep)
  {
    assert ([x] + xs)[1..] == xs;
  }

  // ---------------------------------------------------------------------------
  // markdown_to_html_for_fpdf and the latin-1 round trip
  // ---------------------------------------------------------------------------

  /** `markdown_to_html_for_fpdf`: bold first, then line breaks. */
  function MarkdownToHtml(md: string): (html: string)
    ensures '\n' !in html
  {
    BreakLinesRemovesNewlines(BoldSub(md));
    BreakLines(BoldSub(md))
  }

  /** The HTML of several lines is the HTML of each, joined by `<br>`. */
  lemma MarkdownToHtmlLinewise(a: string, b: string)
    ensures MarkdownToHtml(a + "\n" + b) == MarkdownToHtml(a) + LineBreak + MarkdownToHtml(b)
  {
    BoldStaysOnItsLine(a, b);
    BreakLinesConcat(BoldSub(a) + "\n", BoldSub(b));
    BreakLinesConcat(BoldSub(a), "\n");
    assert BreakLines("\n") == LineBreak;
  }

  /** One line with no `**` in it is returned unchanged. */
  lemma PlainLineUnchanged(s: string)
    requires !Contains(s, BoldMarker) && '\n' !in s
    ensures MarkdownToHtml(s) == s
  {
    PlainTextUnchanged(s);
    NoNewlineUnchanged(s);
  }

  /** The markers of `**a\nb**` sit on different lines, so no bold appears. */
  lemma BoldAcrossLinesExample()
    ensures MarkdownToHtml("**a\nb**") == "**a" + "<br>" + "b**"
  {
    var a, b := "**a", "b**";
    assert "**a\nb**" == a + "\n" + b;
    MarkdownToHtmlLinewise(a, b);
    LiteralLine(a);
    LiteralLine(b);
  }

  /** A line with `**` at one end only and no other asterisk is kept. */
  lemma LiteralLine(s: string)
    requires s == "**a" || s == "b**"
    ensures MarkdownToHtml(s) == s
  {
    if s == "**a" {
      assert s == BoldMarker + "a";
      NoClosingWithoutAsterisk("a");
      UnclosedMarkerStaysLiteral("a");
      AbsentWithoutHead("a", BoldMarker);
      PlainTextUnchanged("a");
    } else {
      assert s == "b" + BoldMarker;
      PlainPrefix("b", BoldMarker);
      assert BoldMarker[1..] == "*";
      assert BoldSub(BoldMarker) == BoldMarker;
    }
    NoNewlineUnchanged(s);
  }

  /** One character through `encode('latin-1', 'replace').decode('latin-1')`. */
  function Latin1Char(c: char): char {
    if c as int < 256 then c else Replacement
  }

  predicate IsLatin1(s: string) {
    forall i :: 0 <= i < |s| ==> s[i] as int < 256
  }

  /** The latin-1 round trip, character by character. */
  function Latin1Replace(s: string): (r: string)
    ensures |r| == |s|
    ensures forall i :: 0 <= i < |s| ==> r[i] == Latin1Char(s[i])
  {
    seq(|s|, i requires 0 <= i < |s| => Latin1Char(s[i]))
  }

  /** The result is always encodable, and encodable text comes back unchanged,
      so the step is idempotent. */
  lemma Latin1ReplaceProperties(s: string)
    ensures IsLatin1(Latin1Replace(s))
    ensures Latin1Replace(s) == s <==> IsLatin1(s)
    ensures Latin1Replace(Latin1Replace(s)) == Latin1Replace(s)
  {
    var r := Latin1Replace(s);
    assert Replacement as int < 256;
    if IsLatin1(s) {
      assert r == s;
    }
    assert Latin1Replace(r) == r;
  }

  /** The replacement works character by character. */
  lemma Latin1Concat(a: string, b: string)
    ensures Latin1Replace(a + b) == Latin1Replace(a) + Latin1Replace(b)
  {
  }

  /** The replacement never touches an asterisk or a newline, and never
      writes one. */
  lemma Latin1KeepsMarkup(c: char)
    ensures Latin1Char(c) == '*' <==> c == '*'
    ensures Latin1Char(c) == '\n' <==> c == '\n'
  {
  }

  /** The closing marker is found at the same place after the replacement. */
  lemma {:induction false} ClosingAfterLatin1(t: string)
    ensures Closing(Latin1Replace(t)) == Closing(t)
    decreases |t|
  {
    var r := Latin1Replace(t);
    if t != [] {
      Latin1KeepsMarkup(t[0]);
      if |t| >= 2 {
        Latin1KeepsMarkup(t[1]);
      }
      assert r[1..] == Latin1Replace(t[1..]);
      ClosingAfterLatin1(t[1..]);
    }
  }

  /** The latin-1 step and the bold substitution commute: the replacement
      neither creates nor breaks a bold span. */
  lemma {:induction false} BoldSubAfterLatin1(s: string)
    ensures BoldSub(Latin1Replace(s)) == Latin1Replace(BoldSub(s))
    decreases |s|
  {
    var r := Latin1Replace(s);
    if s == [] {
    } else {
      Latin1KeepsMarkup(s[0]);
      if |s| >= 2 {
        Latin1KeepsMarkup(s[1]);
        assert r[2..] == Latin1Replace(s[2..]);
        ClosingAfterLatin1(s[2..]);
      }
      if |s| >= 2 && s[0] == '*' && s[1] == '*' && Closing(s[2..]).Some? {
        var k := Closing(s[2..]).value;
        assert r[2..2 + k] == Latin1Replace(s[2..2 + k]);
        assert r[k + 4..] == Latin1Replace(s[k + 4..]);
        BoldSubAfterLatin1(s[k + 4..]);
        AsciiTagsKept();
        Latin1Concat(BoldOpen, s[2..2 + k]);
        Latin1Concat(BoldOpen + s[2..2 + k], BoldClose);
        Latin1Concat(BoldOpen + s[2..2 + k] + BoldClose, BoldSub(s[k + 4..]));
      } else {
        assert r[1..] == Latin1Replace(s[1..]);
        BoldSubAfterLatin1(s[1..]);
        Latin1Concat([s[0]], BoldSub(s[1..]));
      }
    }
  }

  /** The tags are plain ASCII and pass through unchanged. */
  lemma AsciiTagsKept()
    ensures Latin1Replace(BoldOpen) == BoldOpen
    ensures Latin1Replace(BoldClose) == BoldClose
    ensures Latin1Replace(LineBreak) == LineBreak
  {
    Latin1ReplaceProperties(BoldOpen);
    Latin1ReplaceProperties(BoldClose);
    Latin1ReplaceProperties(LineBreak);
  }

  /** The same for the line breaks. */
  lemma {:induction false} BreakLinesAfterLatin1(s: string)
    ensures BreakLines(Latin1Replace(s)) == Latin1Replace(BreakLines(s))
    decreases |s|
  {
    var r := Latin1Replace(s);
    if s != [] {
      Latin1KeepsMarkup(s[0]);
      assert r[1..] == Latin1Replace(s[1..]);
      BreakLinesAfterLatin1(s[1..]);
      AsciiTagsKept();
      var head := if s[0] == '\n' then LineBreak else [s[0]];
      Latin1Concat(head, BreakLines(s[1..]));
      assert Latin1Replace([s[0]]) == [r[0]];
    }
  }

  /** Sanitising before or after the rewrite gives the same HTML. */
  lemma MarkupCommutesWithLatin1(text: string)
    ensures PdfMarkup(text) == MarkdownToHtml(Latin1Replace(text))
  {
    BoldSubAfterLatin1(text);
    BreakLinesAfterLatin1(BoldSub(text));
  }

  /** What is handed to `write_html`. */
  function PdfMarkup(text: string): (html: string)
    ensures IsLatin1(html)
    ensures '\n' !in html
  {
    var html := MarkdownToHtml(text);
    Latin1ReplaceProperties(html);
    assert '\n' as int < 256 && Replacement != '\n';
    Latin1Replace(html)
  }

  /** Latin-1 text on one line with no `**` in it reaches the PDF exactly as
      written. */
  lemma PlainLatin1LineUnchanged(s: string)
    requires !Contains(s, BoldMarker) && '\n' !in s && IsLatin1(s)
    ensures PdfMarkup(s) == s
  {
    PlainLineUnchanged(s);
    Latin1ReplaceProperties(s);
  }
}

=== FILE: registry.dfy ===
/** The in-memory caches of the HTTP front ends (`SESSION_CACHE`,
    `CONTRACT_CACHE`): Python dicts, so lookups by key plus iteration in
    insertion order. */
module Registry {
  import opened Wrappers

  /** Keys are the uuid strings the handlers generate or receive. */
  type Key = string

  /** A dict: the keys in insertion order, and the key-to-value map. */
  datatype Store<V> = Store(order: seq<Key>, entries: map<Key, V>)

  /** Every key once in `order`, and exactly the keys of `entries`. */
  ghost predicate Valid<V>(s: Store<V>) {
    && (forall i, j :: 0 <= i < j < |s.order| ==> s.order[i] != s.order[j])
    && (forall k :: k in s.order <==> k in s.entries)
  }

  function Empty<V>(): (s: Store<V>)
    ensures Valid(s)
    ensures s.entries == map[]
  {
    Store([], map[])
  }

  /** `d.get(k)`. */
  function Get<V>(s: Store<V>, k: Key): (r: Option<V>)
    ensures r.Some? <==> k in s.entries
    ensures r.Some? ==> r.value == s.entries[k]
  {
    if k in s.entries then Some(s.entries[k]) else None
  }

  /** `d[k] = v`: a new key goes to the end, an existing one keeps its place. */
  function Put<V>(s: Store<V>, k: Key, v: V): (t: Store<V>)
    requires Valid(s)
    ensures Valid(t)
    ensures t.entries == s.entries[k := v]
    ensures k in s.entries ==> t.order == s.order
    ensures k !in s.entries ==> t.order == s.order + [k]
  {
    if k in s.entries then Store(s.order, s.entries[k := v])
    else Store(s.order + [k], s.entries[k := v])
  }

  /** The keys in order, without `k`. */
  function Without(order: seq<Key>, k: Key): (r: seq<Key>)
    ensures forall x :: x in r <==> x in order && x != k
    ensures |r| <= |order|
  {
    if order == [] then []
    else (if order[0] == k then [] else [order[0]]) + Without(order[1..], k)
  }

  /** `Without` keeps the relative order of the other keys and drops
      nothing else: it is the order with one position removed. */
  lemma {:induction false} WithoutRemovesOne(order: seq<Key>, k: Key, i: nat)
    requires i < |order| && order[i] == k
    requires forall a, b :: 0 <= a < b < |order| ==> order[a] != order[b]
    ensures Without(order, k) == order[..i] + order[i + 1..]
    decreases |order|
  {
    if i == 0 {
      assert forall x :: x in order[1..] ==> x != k by {
        forall x | x in order[1..]
          ensures x != k
        {
          var j :| 0 <= j < |order[1..]| && order[1..][j] == x;
          assert order[j + 1] == x;
        }
      }
      WithoutAbsent(order[1..], k);
    } else {
      WithoutRemovesOne(order[1..], k, i - 1);
      assert order[1..][..i - 1] + order[1..][i..] == order[1..i] + order[i + 1..];
      assert order[..i] == [order[0]] + order[1..i];
    }
  }

  /** A key that is not there leaves the order alone. */
  lemma {:induction false} WithoutAbsent(order: seq<Key>, k: Key)
    requires k !in order
    ensures Without(order, k) == order
    decreases |order|
  {
    if order != [] {
      WithoutAbsent(order[1..], k);
      assert order == [order[0]] + order[1..];
    }
  }

  /** `del d[k]` for a present key (the handlers look the key up first). */
  function Remove<V>(s: Store<V>, k: Key): (t: Store<V>)
    requires Valid(s)
    ensures Valid(t)
    ensures t.entries == s.entries - {k}
  {
    var t := Store(Without(s.order, k), s.entries - {k});
    WithoutIsDistinct(s.order, k);
    t
  }

  /** Removing a key keeps the others distinct. */
  lemma {:induction false} WithoutIsDistinct(order: seq<Key>, k: Key)
    requires forall i, j :: 0 <= i < j < |order| ==> order[i] != order[j]
    ensures forall i, j :: 0 <= i < j < |Without(order, k)| ==> Without(order, k)[i] != Without(order, k)[j]
    decreases |order|
  {
    if order != [] {
      WithoutIsDistinct(order[1..], k);
      var head := if order[0] == k then [] else [order[0]];
      var rest := Without(order[1..], k);
      assert order[0] !in order[1..] by {
        forall j | 0 <= j < |order[1..]|
          ensures order[1..][j] != order[0]
        {
          assert order[1..][j] == order[j + 1];
        }
      }
      assert order[0] !in rest;
      assert Without(order, k) == head + rest;
    }
  }

  /** `d.items()`: the pairs in insertion order. */
  function Items<V>(s: Store<V>): (items: seq<(Key, V)>)
    requires Valid(s)
    ensures |items| == |s.order|
    ensures forall i :: 0 <= i < |items| ==> items[i].0 == s.order[i] && items[i].1 == s.entries[s.order[i]]
  {
    seq(|s.order|, i requires 0 <= i < |s.order| => (s.order[i], s.entries[s.order[i]]))
  }

  /** `len(d)`: one item per key. */
  lemma ItemsCount<V>(s: Store<V>)
    requires Valid(s)
    ensures |Items(s)| == |s.entries|
  {
    OrderIsKeys(s.order, s.entries.Keys);
  }

  /** A duplicate-free sequence holding exactly the elements of a set has
      the set's size. */
  lemma {:induction false} OrderIsKeys(order: seq<Key>, keys: set<Key>)
    requires forall i, j :: 0 <= i < j < |order| ==> order[i] != order[j]
    requires forall k :: k in order <==> k in keys
    ensures |order| == |keys|
    decreases |order|
  {
    if order != [] {
      var rest := order[1..];
      assert order[0] !in rest by {
        forall j | 0 <= j < |rest|
          ensures rest[j] != order[0]
        {
          assert rest[j] == order[j + 1];
        }
      }
      forall k
        ensures k in rest <==> k in keys - {order[0]}
      {
        if k in rest {
          var j :| 0 <= j < |rest| && rest[j] == k;
          assert order[j + 1] == k;
        }
        if k in order && k != order[0] {
          var j :| 0 <= j < |order| && order[j] == k;
          assert j != 0;
          assert rest[j - 1] == k;
        }
      }
      OrderIsKeys(rest, keys - {order[0]});
    }
  }

  /** Reading back a key just written gives its value, and no other key
      changes. */
  lemma GetAfterPut<V>(s: Store<V>, k: Key, v: V, other: Key)
    requires Valid(s)
    ensures Get(Put(s, k, v), k) == Some(v)
    ensures other != k ==> Get(Put(s, k, v), other) == Get(s, other)
  {
  }

  /** A removed key reads back as missing, and no other key changes. */
  lemma GetAfterRemove<V>(s: Store<V>, k: Key, other: Key)
    requires Valid(s)
    ensures Get(Remove(s, k), k).None?
    ensures other != k ==> Get(Remove(s, k), other) == Get(s, other)
  {
  }

  /** Writing a new key appends one item at the end, after all the old
      items in their old order. */
  lemma ItemsAfterPut<V>(s: Store<V>, k: Key, v: V)
    requires Valid(s) && k !in s.entries
    ensures Items(Put(s, k, v)) == Items(s) + [(k, v)]
  {
    var t := Put(s, k, v);
    assert k !in s.order;
    forall i | 0 <= i < |s.order|
      ensures Items(t)[i] == Items(s)[i]
    {
      assert t.order[i] == s.order[i] && s.order[i] != k;
    }
  }

  /** Removing a key removes its item and keeps the rest in order. */
  lemma ItemsAfterRemove<V>(s: Store<V>, k: Key, i: nat)
    requires Valid(s) && i < |s.order| && s.order[i] == k
    ensures Items(Remove(s, k)) == Items(s)[..i] + Items(s)[i + 1..]
  {
    var a, b := Items(s), Items(Remove(s, k));
    WithoutRemovesOne(s.order, k, i);
    forall j | 0 <= j < i
      ensures b[j] == a[j]
    {
      ItemBeforeRemoved(s, k, i, j);
    }
    forall j | i <= j < |b|
      ensures b[j] == a[j + 1]
    {
      ItemAfterRemoved(s, k, i, j);
    }
    DropOne(a, b, i);
  }

  /** A sequence that agrees with `a` before `i` and with `a` shifted by one
      from `i` on is `a` with position `i` removed. */
  lemma DropOne<T>(a: seq<T>, b: seq<T>, i: nat)
    requires i < |a| && |b| == |a| - 1
    requires forall j :: 0 <= j < i ==> b[j] == a[j]
    requires forall j :: i <= j < |b| ==> b[j] == a[j + 1]
    ensures b == a[..i] + a[i + 1..]
  {
  }

  /** An item before the removed one keeps its position. */
  lemma ItemBeforeRemoved<V>(s: Store<V>, k: Key, i: nat, j: nat)
    requires Valid(s) && i < |s.order| && s.order[i] == k && j < i
    ensures j < |Items(Remove(s, k))| && Items(Remove(s, k))[j] == Items(s)[j]
  {
    WithoutRemovesOne(s.order, k, i);
    var t := Remove(s, k);
    assert t.order[j] == s.order[j] && s.order[j] != k;
  }

  /** An item after the removed one moves up by one position. */
  lemma ItemAfterRemoved<V>(s: Store<V>, k: Key, i: nat, j: nat)
    requires Valid(s) && i < |s.order| && s.order[i] == k && i <= j < |s.order| - 1
    ensures j < |Items(Remove(s, k))| && Items(Remove(s, k))[j] == Items(s)[j + 1]
  {
    WithoutRemovesOne(s.order, k, i);
    var t := Remove(s, k);
    assert t.order[j] == s.order[j + 1] && s.order[j + 1] != k;
  }
}

=== FILE: simple_api.dfy ===
/** The demystifier endpoints of the FastAPI front end (`main_fastapi.py`).
    Unlike the fuller front end in `Api`, its session cache is a bare dict
    from session id to RAG chain: no file path, time or name is kept, there
    is no listing or deletion, and the chat question is not validated. */
module SimpleApi {
  import opened Wrappers
  import Demystifier

  const PdfContentType := "application/pdf"
  const InvalidFileType := "Invalid file type. Please upload a PDF."
  const ProcessingFailed := "Failed to process document: "
  const SessionNotFound := "Session not found. Please upload the document again."
  const ChatFailed := "An error occurred during chat: "

  /** `SESSION_CACHE`, and the temporary files left on disk. */
  datatype SimpleServer = SimpleServer(sessions: map<string, Demystifier.RagChain>, tempFiles: set<string>)

  datatype HttpError = HttpError(status: nat, detail: string)

  datatype Reply =
    | Uploaded(sessionId: string, report: Option<Demystifier.DemystifyReport>)
    | Answer(answer: string)

  datatype Step = Step(server: SimpleServer, outcome: Result<Reply, HttpError>)

  /** The document pipeline, given the temporary file's path. */
  type Processor = string -> Result<Demystifier.Analysis, string>

  /** The document pipeline as the server wires it: the PDF loader and
      splitter (`load`, given the file path) feed the demystifier analysis. */
  function Pipeline(llm: Demystifier.Llm, search: Demystifier.Search, index: Demystifier.IndexBuild,
                    load: string -> seq<string>): Processor
  {
    (path: string) => Demystifier.ProcessDocument(llm, search, index, load(path))
  }

  /** `rag_chain.invoke(question)`. */
  type Answerer = (Demystifier.RagChain, string) -> Result<string, string>

  /** `POST /demystify/upload`. The upload is written to a fresh temporary
      file `tempPath`; the file is unlinked only after processing succeeds,
      and only then is the chain cached under the fresh `sessionId`. */
  function Upload(st: SimpleServer, contentType: string, tempPath: string, sessionId: string,
                  process: Processor): (s: Step)
    ensures contentType != PdfContentType ==> s == Step(st, Failure(HttpError(400, InvalidFileType)))
    ensures s.outcome.Success? <==> contentType == PdfContentType && process(tempPath).Success?
    ensures s.outcome.Success? ==>
              && s.outcome.value == Uploaded(sessionId, process(tempPath).value.report)
              && sessionId in s.server.sessions
              && s.server.sessions[sessionId] == process(tempPath).value.ragChain
              && s.server.tempFiles == st.tempFiles - {tempPath}
    ensures contentType == PdfContentType && process(tempPath).Failure? ==>
              && s.outcome == Failure(HttpError(500, ProcessingFailed + process(tempPath).error))
              && s.server.sessions == st.sessions
              && tempPath in s.server.tempFiles
  {
    if contentType != PdfContentType then
      Step(st, Failure(HttpError(400, InvalidFileType)))
    else
      var written := st.tempFiles + {tempPath};
      match process(tempPath)
      case Failure(e) =>
        Step(st.(tempFiles := written), Failure(HttpError(500, ProcessingFailed + e)))
      case Success(analysis) =>
        var server := SimpleServer(st.sessions[sessionId := analysis.ragChain], written - {tempPath});
        Step(server, Success(Uploaded(sessionId, analysis.report)))
  }

  /** `POST /demystify/chat`: the session is looked up first, with any
      question; the chain's error becomes a 500. */
  function Chat(st: SimpleServer, sessionId: string, question: string, answer: Answerer): (r: Result<Reply, HttpError>)
    ensures sessionId !in st.sessions ==> r == Failure(HttpError(404, SessionNotFound))
    ensures r.Success? <==> sessionId in st.sessions && answer(st.sessions[sessionId], question).Success?
    ensures r.Success? ==> r.value == Answer(answer(st.sessions[sessionId], question).value)
    ensures sessionId in st.sessions && r.Failure? ==> r.error.status == 500
  {
    if sessionId !in st.sessions then Failure(HttpError(404, SessionNotFound))
    else
      match answer(st.sessions[sessionId], question)
      case Success(a) => Success(Answer(a))
      case Failure(e) => Failure(HttpError(500, ChatFailed + e))
  }

  /** With a fresh id, a successful upload adds exactly one session and
      leaves every other session as it was; no temporary file is left. */
  lemma UploadAddsExactlyOneSession(st: SimpleServer, contentType: string, tempPath: string, sessionId: string,
                                    process: Processor, other: string)
    requires contentType == PdfContentType && process(tempPath).Success?
    requires sessionId !in st.sessions && tempPath !in st.tempFiles
    ensures var s := Upload(st, contentType, tempPath, sessionId, process);
            && s.server.sessions.Keys == st.sessions.Keys + {sessionId}
            && |s.server.sessions| == |st.sessions| + 1
            && (other in st.sessions ==> s.server.sessions[other] == st.sessions[other])
            && tempPath !in s.server.tempFiles
  {
  }

  /** No upload ever drops a session: the cache only grows. */
  lemma SessionsOnlyGrow(st: SimpleServer, contentType: string, tempPath: string, sessionId: string, process: Processor)
    ensures st.sessions.Keys <= Upload(st, contentType, tempPath, sessionId, process).server.sessions.Keys
  {
  }

  /** The id an upload returns answers questions with that document's chain. */
  lemma ChatAfterUpload(st: SimpleServer, tempPath: string, sessionId: string, process: Processor,
                        question: string, answer: Answerer)
    requires process(tempPath).Success?
    ensures var s := Upload(st, PdfContentType, tempPath, sessionId, process);
            Chat(s.server, sessionId, question, answer)
              == Chat(SimpleServer(map[sessionId := process(tempPath).value.ragChain], {}), sessionId, question, answer)
  {
  }

  /** An unknown session gives 404 whatever the question, even an empty one:
      this front end does not validate questions. */
  lemma ChatUnknownSession(st: SimpleServer, sessionId: string, answer: Answerer)
    requires sessionId !in st.sessions
    ensures Chat(st, sessionId, "", answer).Failure?
    ensures Chat(st, sessionId, "", answer).error.status == 404
  {
  }

  /** With the demystifier as its pipeline, an upload succeeds exactly when
      the vector store is built and every call of the graph returns, and then
      the reply always carries the analysis' report. */
  lemma UploadWithDemystifier(st: SimpleServer, tempPath: string, sessionId: string,
                              llm: Demystifier.Llm, search: Demystifier.Search,
                              index: Demystifier.IndexBuild, load: string -> seq<string>)
    ensures var s := Upload(st, PdfContentType, tempPath, sessionId, Pipeline(llm, search, index, load));
            var chunks := load(tempPath);
            && (s.outcome.Success? <==> index(chunks).Success? && Demystifier.GraphCallsReturn(llm, search, chunks))
            && (s.outcome.Success? ==>
                  && s.outcome.value.report.Some?
                  && s.outcome.value.report == Demystifier.ProcessDocument(llm, search, index, chunks).value.report)
  {
    Demystifier.ProcessDocumentSucceedsIff(llm, search, index, load(tempPath));
  }
}

=== FILE: text.dfy ===
/** The handful of Python `str` operations the core relies on, written out over
    `string` (a sequence of Unicode scalar values, like a Python `str`):
    `isspace`, `strip`, `find`, `split(sep)`, `sep.join` and `startswith`. */
module Text {
  import opened Wrappers

  /** Python's `str.isspace()` for one character: the Unicode whitespace set
      (bidirectional types WS, B, S and general category Zs). */
  predicate IsSpace(c: char) {
    var n := c as int;
    n == 0x20 || (0x09 <= n <= 0x0D) || (0x1C <= n <= 0x1F) || n == 0x85 || n == 0xA0
    || n == 0x1680 || (0x2000 <= n <= 0x200A) || n == 0x2028 || n == 0x2029
    || n == 0x202F || n == 0x205F || n == 0x3000
  }

  ghost predicate AllSpace(s: string) {
    forall i :: 0 <= i < |s| ==> IsSpace(s[i])
  }

  /** A string that `strip()` leaves alone: empty, or bounded by non-whitespace. */
  predicate IsStripped(t: string) {
    t == [] || (!IsSpace(t[0]) && !IsSpace(t[|t| - 1]))
  }

  /** `s.lstrip()`: drops leading whitespace. */
  function LStrip(s: string): (r: string)
    ensures |r| <= |s|
    ensures r == [] || !IsSpace(r[0])
    decreases |s|
  {
    if |s| > 0 && IsSpace(s[0]) then LStrip(s[1..]) else s
  }

  /** `s.rstrip()`: drops trailing whitespace. */
  function RStrip(s: string): (r: string)
    ensures |r| <= |s|
    ensures r == [] || !IsSpace(r[|r| - 1])
    decreases |s|
  {
    if |s| > 0 && IsSpace(s[|s| - 1]) then RStrip(s[..|s| - 1]) else s
  }

  /** What `lstrip()` leaves is a suffix of its input. */
  lemma {:induction false} LStripIsSuffix(s: string)
    ensures LStrip(s) == s[|s| - |LStrip(s)|..]
    decreases |s|
  {
    if |s| > 0 && IsSpace(s[0]) {
      LStripIsSuffix(s[1..]);
    }
  }

  /** What `rstrip()` leaves is a prefix of its input. */
  lemma {:induction false} RStripIsPrefix(s: string)
    ensures RStrip(s) == s[..|RStrip(s)|]
    decreases |s|
  {
    if |s| > 0 && IsSpace(s[|s| - 1]) {
      RStripIsPrefix(s[..|s| - 1]);
    }
  }

  /** `s.strip()`. */
  function Strip(s: string): (r: string)
    ensures IsStripped(r)
    ensures |r| <= |s|
  {
    var l := LStrip(s);
    RStripIsPrefix(l);
    RStrip(l)
  }

  /** What `lstrip()` drops is whitespace. */
  lemma {:induction false} LStripDropsSpace(s: string)
    ensures AllSpace(s[..|s| - |LStrip(s)|])
    decreases |s|
  {
    if |s| > 0 && IsSpace(s[0]) {
      LStripDropsSpace(s[1..]);
      var d := |s| - |LStrip(s)|;
      assert s[..d] == [s[0]] + s[1..][..d - 1];
    }
  }

  /** What `rstrip()` drops is whitespace. */
  lemma {:induction false} RStripDropsSpace(s: string)
    ensures AllSpace(s[|RStrip(s)|..])
    decreases |s|
  {
    if |s| > 0 && IsSpace(s[|s| - 1]) {
      var p := s[..|s| - 1];
      RStripDropsSpace(p);
      assert s[|RStrip(s)|..] == p[|RStrip(p)|..] + [s[|s| - 1]];
    }
  }

  /** `strip()` never introduces a character. */
  lemma StripAvoids(s: string, c: char)
    requires c !in s
    ensures c !in Strip(s)
  {
    var l := LStrip(s);
    var r := RStrip(l);
    LStripIsSuffix(s);
    RStripIsPrefix(l);
    forall i | 0 <= i < |r|
      ensures r[i] != c
    {
      assert r[i] == l[i] == s[|s| - |l| + i];
    }
  }

  lemma StrippedIsFixpoint(t: string)
    requires IsStripped(t)
    ensures Strip(t) == t
  {
  }

  /** `strip()` is idempotent. */
  lemma StripIdempotent(s: string)
    ensures Strip(Strip(s)) == Strip(s)
  {
    StrippedIsFixpoint(Strip(s));
  }

  lemma {:induction false} LStripPadding(a: string, t: string)
    requires AllSpace(a)
    requires t == [] || !IsSpace(t[0])
    ensures LStrip(a + t) == t
    decreases |a|
  {
    if a != [] {
      assert (a + t)[1..] == a[1..] + t;
      LStripPadding(a[1..], t);
    }
  }

  lemma {:induction false} RStripPadding(t: string, b: string)
    requires AllSpace(b)
    requires t == [] || !IsSpace(t[|t| - 1])
    ensures RStrip(t + b) == t
    decreases |b|
  {
    if b != [] {
      assert (t + b)[..|t + b| - 1] == t + b[..|b| - 1];
      RStripPadding(t, b[..|b| - 1]);
    }
  }

  /** The converse: whitespace padding on either side of a stripped string is
      exactly what `strip()` removes. */
  lemma {:induction false} StripPadding(a: string, t: string, b: string)
    requires AllSpace(a) && AllSpace(b) && IsStripped(t)
    ensures Strip(a + t + b) == t
  {
    if t == [] {
      assert a + t + b == a + b;
      assert AllSpace(a + b);
      LStripPadding(a + b, []);
      assert a + b + [] == a + b;
    } else {
      assert a + t + b == a + (t + b);
      LStripPadding(a, t + b);
      RStripPadding(t, b);
    }
  }

  /** `pat` occurs in `s` starting at index `i`. */
  predicate OccursAt(s: string, pat: string, i: int) {
    0 <= i && i + |pat| <= |s| && s[i..i + |pat|] == pat
  }

  /** Python's `pat in s`. */
  ghost predicate Contains(s: string, pat: string) {
    exists i :: OccursAt(s, pat, i)
  }

  /** Python's `s.find(pat, start)`: the first occurrence at or after `start`. */
  function FindFrom(s: string, pat: string, start: nat): (r: Option<nat>)
    ensures r.Some? ==> start <= r.value && r.value + |pat| <= |s|
    decreases |s| - start
  {
    if start + |pat| > |s| then None
    else if s[start..start + |pat|] == pat then Some(start)
    else FindFrom(s, pat, start + 1)
  }

  /** Python's `s.find(pat)` (None for -1). */
  function Find(s: string, pat: string): (r: Option<nat>)
    ensures r.Some? ==> r.value + |pat| <= |s|
  {
    FindFrom(s, pat, 0)
  }

  /** `i` is the first occurrence of `pat` in `s`. */
  ghost predicate FirstAt(s: string, pat: string, i: int) {
    OccursAt(s, pat, i) && forall j :: 0 <= j < i ==> !OccursAt(s, pat, j)
  }

  lemma {:induction false} FindFromSpec(s: string, pat: string, start: nat)
    ensures FindFrom(s, pat, start).Some? ==>
      OccursAt(s, pat, FindFrom(s, pat, start).value)
      && forall j :: start <= j < FindFrom(s, pat, start).value ==> !OccursAt(s, pat, j)
    ensures FindFrom(s, pat, start).None? ==> forall j :: start <= j ==> !OccursAt(s, pat, j)
    decreases |s| - start
  {
    if start + |pat| > |s| {
    } else if s[start..start + |pat|] == pat {
    } else {
      FindFromSpec(s, pat, start + 1);
    }
  }

  /** `find` reports the first occurrence, and reports none exactly when the
      pattern is absent. */
  lemma FindSpec(s: string, pat: string)
    ensures Find(s, pat).None? <==> !Contains(s, pat)
    ensures Find(s, pat).Some? ==> FirstAt(s, pat, Find(s, pat).value)
  {
    FindFromSpec(s, pat, 0);
  }

  /** The first occurrence is unique, so `find` returns it. */
  lemma FindIsFirst(s: string, pat: string, i: int)
    requires FirstAt(s, pat, i)
    ensures Find(s, pat) == Some(i)
  {
    FindSpec(s, pat);
    var v := Find(s, pat).value;
    assert !(v < i);
    assert !(i < v);
  }

  lemma OccursAtChar(s: string, c: char, j: int)
    ensures OccursAt(s, [c], j) <==> 0 <= j < |s| && s[j] == c
  {
    if 0 <= j < |s| {
      assert s[j..j + 1] == [s[j]];
    }
  }

  /** For a one-character pattern, `find` is the index of the first copy. */
  lemma FindChar(s: string, c: char)
    ensures Find(s, [c]).None? <==> c !in s
    ensures Find(s, [c]).Some? ==>
      var i := Find(s, [c]).value;
      i < |s| && s[i] == c && forall j :: 0 <= j < i ==> s[j] != c
  {
    FindSpec(s, [c]);
    forall j
      ensures OccursAt(s, [c], j) <==> 0 <= j < |s| && s[j] == c
    {
      OccursAtChar(s, c, j);
    }
  }

  lemma FindCharAt(s: string, c: char, i: nat)
    requires i < |s| && s[i] == c
    requires forall j :: 0 <= j < i ==> s[j] != c
    ensures Find(s, [c]) == Some(i)
  {
    FindChar(s, c);
  }

  /** Python's `s.split(sep)` for a non-empty separator: occurrences are cut
      left to right, each search resuming after the previous separator. */
  function Split(s: string, sep: string): (parts: seq<string>)
    requires |sep| > 0
    ensures |parts| >= 1
    decreases |s|
  {
    match Find(s, sep)
    case None => [s]
    case Some(i) => [s[..i]] + Split(s[i + |sep|..], sep)
  }

  /** Python's `sep.join(parts)`. */
  function Join(parts: seq<string>, sep: string): string
    decreases |parts|
  {
    if |parts| == 0 then ""
    else if |parts| == 1 then parts[0]
    else parts[0] + sep + Join(parts[1..], sep)
  }

  /** Python's `s.startswith(prefix)`. */
  predicate StartsWith(s: string, prefix: string) {
    |prefix| <= |s| && s[..|prefix|] == prefix
  }

  function Last<T>(xs: seq<T>): T
    requires |xs| > 0
  {
    xs[|xs| - 1]
  }

  lemma OccursInPrefix(s: string, pat: string, n: nat, k: int)
    requires n <= |s|
    ensures OccursAt(s[..n], pat, k) <==> OccursAt(s, pat, k) && k + |pat| <= n
  {
    if 0 <= k && k + |pat| <= n {
      assert s[..n][k..k + |pat|] == s[k..k + |pat|];
    }
  }

  lemma OccursInSuffix(s: string, pat: string, a: nat, k: int)
    requires a <= |s|
    ensures OccursAt(s[a..], pat, k) <==> OccursAt(s, pat, a + k) && 0 <= k
  {
    if 0 <= k && a + k + |pat| <= |s| {
      assert s[a..][k..k + |pat|] == s[a + k..a + k + |pat|];
    }
  }

  /** One step of a split: the field before the first separator, then the
      split of the remainder. */
  lemma SplitStep(s: string, sep: string, i: nat)
    requires |sep| > 0
    requires FirstAt(s, sep, i)
    ensures Split(s, sep) == [s[..i]] + Split(s[i + |sep|..], sep)
    ensures s == s[..i] + sep + s[i + |sep|..]
  {
    FindIsFirst(s, sep, i);
    assert Split(s, sep) == [s[..i]] + Split(s[i + |sep|..], sep);
    assert s[i..i + |sep|] == sep;
    assert s == s[..i] + s[i..i + |sep|] + s[i + |sep|..];
  }

  /** Splitting and joining with the same separator give back the input. */
  lemma {:induction false} SplitJoin(s: string, sep: string)
    requires |sep| > 0
    ensures Join(Split(s, sep), sep) == s
    decreases |s|
  {
    FindSpec(s, sep);
    match Find(s, sep)
    case None =>
    case Some(i) =>
      var rest := s[i + |sep|..];
      SplitStep(s, sep, i);
      SplitJoin(rest, sep);
      assert |Split(rest, sep)| >= 1;
      assert Join(Split(s, sep), sep) == s[..i] + sep + Join(Split(rest, sep), sep);
  }

  /** No field of a split contains the separator. */
  lemma {:induction false} SplitFieldsAreFree(s: string, sep: string)
    requires |sep| > 0
    ensures forall k :: 0 <= k < |Split(s, sep)| ==> !Contains(Split(s, sep)[k], sep)
    decreases |s|
  {
    FindSpec(s, sep);
    match Find(s, sep)
    case None =>
    case Some(i) =>
      var rest := s[i + |sep|..];
      SplitStep(s, sep, i);
      SplitFieldsAreFree(rest, sep);
      forall j | OccursAt(s[..i], sep, j)
        ensures false
      {
        OccursInPrefix(s, sep, i, j);
      }
  }

  /** A split yields a single field exactly when the separator is absent. */
  lemma SplitIsSingleton(s: string, sep: string)
    requires |sep| > 0
    ensures |Split(s, sep)| == 1 <==> !Contains(s, sep)
  {
    FindSpec(s, sep);
    match Find(s, sep)
    case None =>
    case Some(i) =>
      assert |Split(s[i + |sep|..], sep)| >= 1;
  }

  /** Where the first field of a split ends: at the first separator, or at
      the end of the string when there is none. */
  function FieldEnd(s: string, sep: string): (n: nat)
    ensures n <= |s|
  {
    match Find(s, sep)
    case None => |s|
    case Some(i) => i
  }

  /** The first field is the text before the first separator: it holds no
      separator, and it stops at a separator or at the end of the string. */
  lemma SplitHead(s: string, sep: string)
    requires |sep| > 0
    ensures Split(s, sep)[0] == s[..FieldEnd(s, sep)]
    ensures !Contains(s[..FieldEnd(s, sep)], sep)
    ensures FieldEnd(s, sep) == |s| || OccursAt(s, sep, FieldEnd(s, sep))
  {
    FindSpec(s, sep);
    var n := FieldEnd(s, sep);
    forall k | OccursAt(s[..n], sep, k)
      ensures false
    {
      OccursInPrefix(s, sep, n, k);
    }
  }

  /** A string without the separator splits into itself. */
  lemma SplitWithout(s: string, sep: string)
    requires |sep| > 0
    requires !Contains(s, sep)
    ensures Split(s, sep) == [s]
  {
    FindSpec(s, sep);
  }

  /** A prefix of a string without `pat` has no `pat` either. */
  lemma AbsentFromPrefix(s: string, pat: string, n: nat)
    requires n <= |s| && !Contains(s, pat)
    ensures !Contains(s[..n], pat)
  {
    forall k | OccursAt(s[..n], pat, k)
      ensures false
    {
      OccursInPrefix(s, pat, n, k);
    }
  }

  /** An occurrence of a pattern that does not hold `c` never spans a `c`: it
      lies wholly on one side of it. */
  lemma OccursAroundChar(a: string, c: char, b: string, pat: string, k: int)
    requires c !in pat
    requires OccursAt(a + [c] + b, pat, k)
    ensures OccursAt(a, pat, k) || OccursAt(b, pat, k - |a| - 1)
  {
    var s := a + [c] + b;
    if k + |pat| <= |a| {
      OccursInPrefix(s, pat, |a|, k);
      assert s[..|a|] == a;
    } else if k >= |a| + 1 {
      OccursInSuffix(s, pat, |a| + 1, k - |a| - 1);
      assert s[|a| + 1..] == b;
    } else {
      OccursAtIndex(s, pat, k, |a|);
      assert false;
    }
  }

  /** Gluing two strings without `pat` around a character `pat` does not
      hold gives a string without `pat`. */
  lemma AbsentAroundChar(a: string, c: char, b: string, pat: string)
    requires c !in pat
    requires !Contains(a, pat) && !Contains(b, pat)
    ensures !Contains(a + [c] + b, pat)
  {
    forall k | OccursAt(a + [c] + b, pat, k)
      ensures false
    {
      OccursAroundChar(a, c, b, pat, k);
    }
  }

  /** A `pat` that starts right after the character `c`, with none before `c`,
      is the first occurrence. */
  lemma FirstAfterChar(a: string, c: char, b: string, pat: string)
    requires c !in pat
    requires !Contains(a, pat) && OccursAt(b, pat, 0)
    ensures FirstAt(a + [c] + b, pat, |a| + 1)
  {
    var s := a + [c] + b;
    assert s[|a| + 1..] == b;
    OccursInSuffixBack(s, pat, |a| + 1);
    forall j | 0 <= j < |a| + 1 && OccursAt(s, pat, j)
      ensures false
    {
      OccursAroundChar(a, c, b, pat, j);
    }
  }

  /** An occurrence at the start of a suffix is an occurrence in the whole. */
  lemma OccursInSuffixBack(s: string, pat: string, a: nat)
    requires a <= |s| && OccursAt(s[a..], pat, 0)
    ensures OccursAt(s, pat, a)
  {
    assert s[a..][..|pat|] == s[a..a + |pat|];
  }

  /** A pattern longer than the string never occurs in it. */
  lemma AbsentWhenLonger(s: string, pat: string)
    requires |s| < |pat|
    ensures !Contains(s, pat)
  {
  }

  /** A pattern whose first character is absent never occurs. */
  lemma AbsentWithoutHead(s: string, pat: string)
    requires |pat| > 0 && pat[0] !in s
    ensures !Contains(s, pat)
  {
    forall k | OccursAt(s, pat, k)
      ensures false
    {
      OccursAtIndex(s, pat, k, k);
    }
  }

  /** Inside an occurrence, the string agrees with the pattern. */
  lemma OccursAtIndex(s: string, pat: string, k: int, p: int)
    requires OccursAt(s, pat, k) && k <= p < k + |pat|
    ensures s[p] == pat[p - k]
  {
    assert s[k..k + |pat|][p - k] == s[p];
  }

  /** `tail` follows an occurrence of `sep` at `k` and holds no further one:
      `k` is the last occurrence. */
  ghost predicate AfterLast(s: string, sep: string, k: int, tail: string) {
    OccursAt(s, sep, k) && tail == s[k + |sep|..] && !Contains(tail, sep)
  }

  /** The last field is the text after the last separator (all of `s` when
      there is none). */
  lemma SplitLast(s: string, sep: string)
    requires |sep| > 0
    ensures !Contains(s, sep) ==> Last(Split(s, sep)) == s
    ensures Contains(s, sep) ==> (exists k :: AfterLast(s, sep, k, Last(Split(s, sep))))
  {
    if Contains(s, sep) {
      SplitLastAfterSeparator(s, sep);
    } else {
      SplitWithout(s, sep);
    }
  }

  lemma {:induction false} SplitLastAfterSeparator(s: string, sep: string)
    requires |sep| > 0 && Contains(s, sep)
    ensures exists k :: AfterLast(s, sep, k, Last(Split(s, sep)))
    decreases |s|
  {
    FindSpec(s, sep);
    var i := Find(s, sep).value;
    var rest := s[i + |sep|..];
    SplitStep(s, sep, i);
    var tail := Last(Split(rest, sep));
    assert Last(Split(s, sep)) == tail;
    if Contains(rest, sep) {
      SplitLastAfterSeparator(rest, sep);
      var k :| AfterLast(rest, sep, k, tail);
      AfterLastShift(s, sep, i, rest, k, tail);
    } else {
      SplitWithout(rest, sep);
      assert AfterLast(s, sep, i, tail);
    }
  }

  /** A last occurrence in the remainder after an occurrence at `i` is the
      last occurrence in the whole string. */
  lemma AfterLastShift(s: string, sep: string, i: nat, rest: string, k: int, tail: string)
    requires OccursAt(s, sep, i) && rest == s[i + |sep|..]
    requires AfterLast(rest, sep, k, tail)
    ensures AfterLast(s, sep, i + |sep| + k, tail)
  {
    var m := |sep|;
    OccursInSuffix(s, sep, i + m, k);
    assert rest[k + m..] == s[i + m + k + m..];
  }

  /** For a one-character separator the number of fields is the number of
      separators plus one. */
  lemma {:induction false} SplitCharCount(s: string, c: char)
    ensures |Split(s, [c])| == multiset(s)[c] + 1
    decreases |s|
  {
    FindChar(s, c);
    match Find(s, [c])
    case None =>
    case Some(i) =>
      var rest := s[i + 1..];
      SplitCharCount(rest, c);
      assert Split(s, [c]) == [s[..i]] + Split(rest, [c]);
      assert s == s[..i] + [c] + rest;
      assert multiset(s) == multiset(s[..i]) + multiset([c]) + multiset(rest);
      assert c !in s[..i];
      assert multiset(s[..i])[c] == 0;
  }

  /** For a one-character separator, splitting distributes over a separator
      placed between two strings. */
  lemma {:induction false} SplitCharConcat(x: string, c: char, y: string)
    ensures Split(x + [c] + y, [c]) == Split(x, [c]) + Split(y, [c])
    decreases |x|
  {
    var s := x + [c] + y;
    FindChar(x, c);
    match Find(x, [c])
    case None =>
      FindCharAt(s, c, |x|);
      assert s[..|x|] == x;
      assert s[|x| + 1..] == y;
    case Some(i) =>
      FindCharAt(s, c, i);
      assert s[..i] == x[..i];
      assert s[i + 1..] == x[i + 1..] + [c] + y;
      SplitCharConcat(x[i + 1..], c, y);
  }

  /** A string without the separator character splits into itself. */
  lemma SplitCharAbsent(s: string, c: char)
    requires c !in s
    ensures Split(s, [c]) == [s]
  {
    FindChar(s, c);
  }
}

=== FILE: wrappers.dfy ===
/** Failure-compatible wrappers used throughout the model: an optional value and
    a value-or-error result (the source's exceptions become Failure values). */
module Wrappers {

  datatype Option<+T> = None | Some(value: T)

  datatype Result<+T, +E> = Success(value: T) | Failure(error: E)

  function Min(a: int, b: int): (m: int)
    ensures m <= a && m <= b
    ensures m == a || m == b
  {
    if a <= b then a else b
  }
}
